=== FILE: README.md ===
# Wrapped-io form builder — a Dafny model

Wrapped-io lets an organiser build a registration form. The organiser edits
the questions, composes a landing page from blocks and designs a shareable
"story" card. A participant answers the questions one at a time and then gets
a story card built from their answers. This project models the logic behind
those screens as pure functions over immutable data and proves what each
operation does:

- `Types` (types.dfy): the form, question, landing-block, story-configuration
  and submission records, and the string tags of the enumerations with their
  parsers.
- `FieldEditor` (field_editor.dfy): the builder's question editor. It covers
  updating, adding and removing questions, switching a question's kind, and
  editing, deleting, adding and reordering the options of a choice question.
- `LandingComposer` (landing_composer.dfy): the landing-page composer. It
  covers adding, updating, restyling and deleting blocks, the selection, the
  palette and canvas drops, drag-and-drop reordering, and committing an inline
  edit of a feature card.
- `StoryPreview` (story_preview.dfy): the story card. It covers the theme
  fallback, how the participant name is resolved, which questions the card
  lists, and the placeholder.
- `Participant` (participant.dfy): the participant page. It is a state
  machine over step, answers and the generating and submitted flags. The
  2-second timer is an explicit event.
- `FormsDb` (forms_db.dfy): the storage service. It covers the
  `storyConfig` / `story_config` rename in both directions, the rows sent on
  create, update and submission, how backend errors surface, and the demo
  store used when no backend is configured.
- `Fixtures` (fixtures.dfy): the default landing page, the default story
  configuration, the demo form and the builder's initial draft, with worked
  examples over them.
- `Wrappers`, `Lists` and `Text` are shared helpers:
  - `Option` and `Result`, and the key-by-key override a `{ ...a, ...b }`
    spread performs;
  - splice-style insertion with JavaScript's index clamping, removal, swap,
    move, filter and first-match search;
  - ASCII `toLowerCase` and `includes`.

Some conventions are used throughout:

- A `Partial<T>` update is a patch record. A mandatory key is an `Option`.
  An optional key is an `Option<Option<_>>`, so "the patch sets it to
  `undefined`" differs from "the patch does not mention it".
- Ids taken from `Date.now()` are parameters (`freshId`).
- The backend's answers are parameters (`Response`).
- The question field `label` is called `caption`, because `label` is a
  Dafny keyword.

## Model

| member | source | states |
|---|---|---|
| Types.ParseFieldType | types.ts:2 | a string parses to a question kind exactly when it is that kind's tag; anything else is rejected |
| Types.FieldTypeRoundTrip | types.ts:2 | every question kind's tag parses back to that kind |
| Types.ParseStatus | types.ts:56 | a string parses to a form status exactly when it is that status's tag ('draft', 'active', 'closed') |
| Types.ParseTemplate | types.ts:14 | a string parses to a story template exactly when it is that template's tag |
| Types.ParseBlockType | types.ts:28 | a string parses to a block type exactly when it is that type's tag |
| FieldEditor.UpdateField | pages/Builder.tsx:58-63 | the question list keeps its length and order; questions with the id get the patch merged over them, the others are untouched, and an unknown id changes nothing |
| FieldEditor.AddField | pages/Builder.tsx:65-74 | exactly one question is appended: a required text question "New Question" with the fresh id, not on the story, no placeholder or options; the old list is an unchanged prefix |
| FieldEditor.RemoveField | pages/Builder.tsx:76-78 | no remaining question has the id; every question with another id stays and nothing new appears; the list shrinks when the id was present |
| FieldEditor.RemoveFieldSplit | pages/Builder.tsx:76-78 | removing from a concatenation is removing from each part, so the kept questions stay in their order |
| FieldEditor.RemoveFieldSingle | pages/Builder.tsx:76-78 | a single question is kept exactly when its id differs; with the split lemma this fixes the result and its count |
| FieldEditor.AddThenRemove | pages/Builder.tsx:65-78 | adding a question with a fresh id and removing that id restores the list exactly |
| FieldEditor.FindField | pages/Builder.tsx:81 | the search fails exactly when no question has the id; otherwise it returns the first question with the id, which with unique ids is the question at that id's position |
| FieldEditor.StepOptions | pages/Builder.tsx:84-89 | "up" swaps an option with its predecessor and "down" with its successor, except at the ends, where nothing moves; the result is a permutation |
| FieldEditor.MoveOption | pages/Builder.tsx:80-91 | a missing question or one without options leaves the form unchanged; otherwise the questions with the id get the first match's options with one adjacent swap, and no other question changes |
| FieldEditor.UpdateUnique | pages/Builder.tsx:58-63 | with unique ids, a patch that leaves ids alone rewrites exactly one position and keeps the ids unique |
| FieldEditor.MoveOptionAt | pages/Builder.tsx:80-91 | with unique ids, moving an option of question k rewrites only question k's options |
| FieldEditor.StepUpThenDown | pages/Builder.tsx:84-89 | on an option list, stepping option i up and then option i-1 down gives back the list |
| FieldEditor.MoveUpThenDown | pages/Builder.tsx:80-91 | moving option i up and then option i-1 down restores the form |
| FieldEditor.SwitchType | pages/Builder.tsx:220-226 | the chosen kind is set; options become the three defaults exactly when the kind is select or dropdown and the question had no options or an empty list; a choice kind always ends with a non-empty list; other questions are untouched |
| FieldEditor.EditOption | pages/Builder.tsx:266-270 | only the edited option position changes, to the typed text; the option count and all other options are kept |
| FieldEditor.RemoveOption | pages/Builder.tsx:273 | exactly the deleted position leaves the option list and the rest keep their order; a question without options keeps none |
| FieldEditor.AddOption | pages/Builder.tsx:277-278 | "New Option" is appended after the existing options, and an absent list counts as empty |
| FieldEditor.EditOptionRestore | pages/Builder.tsx:266-270 | with unique ids, typing an option's previous text back restores the form |
| FieldEditor.AddThenRemoveOption | pages/Builder.tsx:273-278 | deleting the option just appended restores the form |
| LandingComposer.Slot | pages/Builder.tsx:112-116 | the new block goes at the requested index, clamped to the end as splice does, or at the end when no index is given |
| LandingComposer.AddBlock | pages/Builder.tsx:95-123 | the page grows by one block at the slot; that block has the fresh id and kind, the title "Welcome Event" for hero blocks and "Section Title" otherwise, the default content and style, and only for feature blocks the one "Feature 1" item; removing it gives back the old page; the new block is selected |
| LandingComposer.UpdateBlock | pages/Builder.tsx:125-132 | blocks with the id get a shallow merge of the patch; other blocks, the selection and the drag tracker are untouched |
| LandingComposer.MergeStyle | pages/Builder.tsx:140 | each style key the patch sets takes the patch's value; every other key keeps the old style's value, and a missing style counts as empty |
| LandingComposer.UpdateBlockStyle | pages/Builder.tsx:134-144 | only the style of the blocks with the id changes, merged key by key; everything else is untouched |
| LandingComposer.RemoveBlock | pages/Builder.tsx:146-154 | exactly the blocks with another id remain; the selection is cleared exactly when it was the removed block |
| LandingComposer.RemoveBlockSplit | pages/Builder.tsx:146-152 | removing from a concatenation of blocks is removing from each part, so the kept blocks stay in their order |
| LandingComposer.RemoveBlockSingle | pages/Builder.tsx:146-152 | a single block is kept exactly when its id differs |
| LandingComposer.UpdateBlockEmpty | pages/Builder.tsx:125-132 | the empty patch changes nothing |
| LandingComposer.UpdateBlockKeepsUnique | pages/Builder.tsx:125-132 | a patch that leaves ids alone keeps the block ids unique |
| LandingComposer.MergeStyleIdempotent | pages/Builder.tsx:140 | merging the same style patch twice is merging it once |
| LandingComposer.UpdateBlockStyleIdempotent | pages/Builder.tsx:134-144 | applying the same style update twice is applying it once |
| LandingComposer.AddBlockKeepsUnique | pages/Builder.tsx:95-123 | adding a block with a fresh id keeps the block ids unique |
| LandingComposer.BlockDropKeepsUnique | pages/Builder.tsx:174-193 | a palette drop with a fresh id and a reorder both keep the block ids unique |
| LandingComposer.RemoveBlockKeepsUnique | pages/Builder.tsx:146-154 | deleting blocks keeps the block ids unique |
| LandingComposer.AddThenRemoveBlock | pages/Builder.tsx:95-154 | adding a block with a fresh id at any index and deleting it restores the page and clears the selection |
| LandingComposer.CanvasDrop | pages/Builder.tsx:161-167 | a drop carrying a palette tag appends a new block of that kind; a drop without one changes nothing |
| LandingComposer.BlockDragStart | pages/Builder.tsx:169-172 | the drag tracker records the dragged index; blocks and selection are kept |
| LandingComposer.BlockDrop | pages/Builder.tsx:174-193 | a palette tag inserts a new block at the drop index and keeps the tracker; otherwise a tracked block dropped elsewhere is moved (a permutation landing it at the drop index, the others in their old relative order), a drop in place changes nothing, and the tracker is reset |
| LandingComposer.DragThereAndBack | pages/Builder.tsx:169-193 | dragging a block from i to j and back from j to i restores the page |
| LandingComposer.ReorderExample | pages/Builder.tsx:186-190 | dragging block 2 of [A, B, C, D] onto position 0 gives [C, A, B, D] |
| LandingComposer.CommitItemText | pages/Builder.tsx:509-525 | the committed list copies the items (absent counts as empty); item i, created empty when missing, gets the text in the edited part; its other parts and all other items are kept |
| LandingComposer.CommitFeatureItem | pages/Builder.tsx:509-525 | the blocks with the edited block's id get the new item list; nothing else changes |
| LandingComposer.CommitItemUnchanged | pages/Builder.tsx:509-525 | committing an existing card's current text leaves the item list as it was |
| LandingComposer.CommitFeatureItemUnchanged | pages/Builder.tsx:509-525 | with unique block ids, re-committing a card's current text leaves the page as it was |
| StoryPreview.FindNameField | components/StoryPreview.tsx:18 | the name field is the first question with id "name" or whose label contains "name" in any case; there is none exactly when no question passes |
| StoryPreview.ParticipantName | components/StoryPreview.tsx:17-20 | without answers or questions the name is "Alex Chen"; with both, it is the answer to the first name field, or "Participant" when there is no name field |
| StoryPreview.StoryFields | components/StoryPreview.tsx:22 | the card lists exactly the questions marked for the story that fail the name test, in order and never more than the form has; with no question list it lists none |
| StoryPreview.StoryFieldsSingle | components/StoryPreview.tsx:22 | a single question is listed once exactly when it is marked for the story and is not a name field, and otherwise not at all |
| StoryPreview.StoryFieldsInOrder | components/StoryPreview.tsx:22 | the list is computed question by question, so it distributes over concatenation |
| StoryPreview.NameFieldNotListed | components/StoryPreview.tsx:17-22 | the question chosen as the name is never also listed among the answers |
| StoryPreview.Theme | components/StoryPreview.tsx:15 | the configured template's style is used when present and non-empty; otherwise the gradient style is used |
| StoryPreview.AnswerLines | components/StoryPreview.tsx:43-48 | one line per listed question, in order, with its label and the answer under its id |
| StoryPreview.Render | components/StoryPreview.tsx:13-77 | a template configuration shows its primary text as the headline and its secondary text as the footer; the name section appears exactly when the configuration asks for it and shows the resolved name; the date appears exactly when a template configuration asks for it; answer lines appear exactly when answers are given, one per listed question with its caption and answer, and the placeholder otherwise; a canvas-shaped configuration shows no headline, name, footer or date |
| StoryPreview.ThemeOnlyByTemplate | components/StoryPreview.tsx:15 | two template-shaped configurations with the same template get the same theme, whatever their texts and flags |
| StoryPreview.ThemeNeverBlank | components/StoryPreview.tsx:15 | with a non-empty gradient style, every configuration gets a non-empty background |
| StoryPreview.RenderDependsOnShownAnswers | components/StoryPreview.tsx:17-54 | two answer maps that agree on the listed questions and on the name question give the same card |
| StoryPreview.FullNameExample | components/StoryPreview.tsx:18-19 | a question labelled "Full Name" with id full_name supplies the card's name whatever its letter case |
| Text.ToLower | components/StoryPreview.tsx:18 | lower-casing keeps the length, lowers each letter in place and leaves no upper-case ASCII letter |
| Text.NoNameWithoutNA | components/StoryPreview.tsx:22 | a label with no letter n followed by a letter a, in either case, never passes the "contains name" test |
| Participant.ResolveForm | pages/ParticipantView.tsx:20-24 | the page shows the first demo form with the requested id, or the first demo form when none has it |
| Participant.Next | pages/ParticipantView.tsx:31-37 | before the last question Next moves one step on; on the last question it starts the submission and stays put; answers are kept |
| Participant.Submit | pages/ParticipantView.tsx:39-40 | submitting raises the generating flag and changes nothing else |
| Participant.TimerFired | pages/ParticipantView.tsx:41-44 | when the timer fires, generating ends and the page is submitted; step and answers are kept |
| Participant.InputChange | pages/ParticipantView.tsx:47-49 | the answer under the current question's id becomes the value; every other answer stays |
| Participant.ClickNext | pages/ParticipantView.tsx:259-264 | the Next button does nothing while the current question is required and unanswered (missing or empty), and advances otherwise |
| Participant.PressEnter | pages/ParticipantView.tsx:246-251 | Enter in the free-text input advances exactly when the answer is non-empty, whether or not the question is required; choice questions ignore it |
| Participant.Step | pages/ParticipantView.tsx:12-71 | every event keeps the page on a valid question, with the two flags never both set |
| Participant.NoWayBack | pages/ParticipantView.tsx:39-71 | the phase (answering, generating, submitted) never goes back; once generating starts, step and answers are frozen; the reveal is final |
| Participant.Run | pages/ParticipantView.tsx:12-71 | over any sequence of events the page stays valid, the phase never decreases and answers are frozen once the submission starts |
| Participant.ScreenOf | pages/ParticipantView.tsx:56-71 | the generating screen wins over the reveal; the reveal gets the answers, questions and story configuration; a question screen shows "step + 1 / total", and its button reads "Complete Registration" exactly on the last question and is disabled exactly when Next is |
| Participant.RevealIsFinal | pages/ParticipantView.tsx:66-71 | once the card is revealed, no event changes what the page shows |
| Participant.LastClickReveals | pages/ParticipantView.tsx:31-71 | an enabled click on the last question shows the generating screen, and the timer then reveals the card with the answers given |
| Participant.TwoQuestionWalk | pages/ParticipantView.tsx:31-49 | for a required question followed by an optional one: Next is blocked until an answer is given, then one click moves on, the next click starts generating, and the timer reveals a card holding exactly the first answer |
| FormsDb.FromDb | services/db.ts:30-33 | reading a row keeps every stored key and adds storyConfig as a copy of story_config (undefined when absent) |
| FormsDb.ToDbUpdate | services/db.ts:94-99 | a truthy storyConfig travels as story_config and the camel-case key is dropped; otherwise the updates are sent unchanged |
| FormsDb.UpdateThenRead | services/db.ts:30-99 | after an update merged into the stored row, reading it back returns every updated key with its new value, storyConfig included, for every update whose storyConfig is absent or truthy |
| FormsDb.UpdateFalsyStoryConfig | services/db.ts:30-99 | an update whose storyConfig is present but falsy leaves the stored story_config in place, so the old story configuration reads back while every other key reads back as given |
| FormsDb.CreateInsert | services/db.ts:67-77 | create sends exactly the owner, title, description, status, fields, stats and story_config columns; the landing page is not sent |
| FormsDb.CreateRoundTrip | services/db.ts:67-85 | reading back a created row keeps the story configuration and loses the landing page |
| FormsDb.List | services/db.ts:19-33 | a backend error surfaces as a failure; otherwise every row is mapped by the read mapping, in order |
| FormsDb.GetOne | services/db.ts:44-55 | a backend error yields null; otherwise the row is mapped by the read mapping |
| FormsDb.Create | services/db.ts:67-85 | create sends the insert row; a backend error is a failure, otherwise the returned row is mapped |
| FormsDb.Update | services/db.ts:94-106 | update sends the converted payload; a backend error is a failure |
| FormsDb.SubmissionInsert | services/db.ts:117-122 | a submission row holds exactly the form id and the answers as an object with the same keys and values |
| FormsDb.AnswersOf | services/db.ts:117-122 | the data column reads back as an answer map exactly when it is an object of strings, with the same keys and values |
| FormsDb.SubmissionRoundTrip | services/db.ts:117-122 | the submitted answers read back unchanged from the inserted row |
| FormsDb.CreateSubmission | services/db.ts:110-127 | submitting sends the insert row; a backend error is a failure carrying its message, otherwise the returned row comes back as stored |
| FormsDb.SubmissionOf | services/db.ts:117-126 | the row returned after the insert reads as a submission exactly when its id, form id and timestamp are strings and its data is an answer map, and the submission carries those values |
| FormsDb.SubmissionCreated | services/db.ts:117-126 | the inserted row, completed with the id and timestamp the backend assigns, reads back as the submission of those answers to that form |
| FormsDb.MockList | services/db.ts:12-17 | the demo list is the fixtures followed by the locally created forms |
| FormsDb.MockGet | services/db.ts:37-42 | the demo get returns the first listed form with the id, or null exactly when none has it |
| FormsDb.MockCreate | services/db.ts:59-65 | the demo create appends the form with the fresh id to the local forms and returns it |
| FormsDb.MockUpdate | services/db.ts:89-92 | the demo update leaves the store unchanged |
| FormsDb.CreateThenGet | services/db.ts:36-65 | after a demo create with a fresh id, the list ends with the new form and get finds it |
| FormsDb.FixturesShadow | services/db.ts:37-42 | a fixture shadows any local form with the same id |
| Fixtures.UnknownIdShowsFirstDemo | pages/ParticipantView.tsx:22 | an unknown or missing form id shows the first demo form |
| Fixtures.DemoCardName | constants.ts:93-96 | on the demo form, the question with id "name" supplies the card's name |
| Fixtures.DraftCardName | pages/Builder.tsx:9-22 | in the builder's starting draft the "Full Name" question supplies the card's name |
| Fixtures.DemoCardLines | constants.ts:93-96 | on the demo form, the card lists the experience question alone |
| Fixtures.DemoCardIsCanvas | constants.ts:98 | the demo form's story configuration is canvas-shaped, so its card has no name section and no headline but does list answers |

## Left out

- Rendering, styling, icons, routing, authentication and the Supabase client
  setup: these are presentation or foreign code.
- The canvas story designer and the share and download buttons: presentation
  only.
- The progress-bar percentage (`currentStep / fields.length * 100`): this is
  floating-point presentation.
- The date shown on the card: it reads the clock.
- The backend's own filtering and ordering in `list` (`user_id` match, newest
  first): this runs in the database. The backend's answer is a parameter.
- `localStorage` and `JSON.parse`/`JSON.stringify` in the demo store: the
  stored list is modelled directly. The model ignores that JSON drops
  `undefined` keys.
- The demo `submissions.create` (a console log and the fixed id
  "mock-sub-id"): it is I/O plus a constant.
- The demo `create` stamps its id with `Date.now()`, and the builder stamps
  new questions and blocks the same way: the clock is a parameter (`freshId`).
- Types.Stats: counters are `nat`, whereas the source allows any JavaScript
  number.
- The story configuration is modelled as a tagged union of the declared
  template shape and the canvas shape that the default configuration really
  has. The code never checks which shape it has; the card renders a canvas
  configuration the way the source does, with undefined template keys. The
  builder's design step spreads `template`, `primaryText`, `secondaryText`
  and `showParticipantName` into whatever configuration the form has, so a
  draft that started from the canvas default ends up with both shapes' keys.
  The tagged union cannot represent such a mixed configuration, and
  StoryPreview.Render's "a canvas-shaped configuration shows no headline,
  name, footer or date"
  holds only for pure canvas configurations. The design step itself is not
  modelled.
- LandingComposer.BlockDrop: requires the drag tracker to point at an existing
  block when a reorder happens. The source would splice `undefined` into the
  page for a stale tracker.
- LandingComposer.CommitItemText: requires the edited card to be an existing
  item or the next one. On a features block with no items, the source shows
  three placeholder cards, and editing the second or third would leave holes
  in the array.
- LandingComposer.CommitFeatureItem: the source copies the item array but
  writes the new text into the existing item object in place. The builder's
  starting draft shares its landing page with the default landing
  configuration, which is also the demo form's landing page. So an edit of a
  feature card in a fresh draft also rewrites that shared constant. The
  change then shows on the demo form's participant page, in the demo
  store's `list` and `get`, and in the next fresh draft. The model builds a
  new item and does not follow this leak into the shared fixtures.
- FieldEditor.MoveOption: requires the index to address an existing option,
  as the editor's arrows do. The source would swap in `undefined`.
- Text.ToLower: lower-cases ASCII letters only, not the full Unicode case
  mapping of `toLowerCase`.
- Participant.Run: models the timer as an event. A timer that fires while the
  page is not generating is ignored.

=== FILE: field_editor.dfy ===
/** The question editor of the builder page: edits to the ordered list of
    form fields and to the option list of a choice field. Every operation
    addresses fields by id and rewrites all fields carrying that id. */
module FieldEditor {
  import opened Wrappers
  import opened Types
  import Lists

  /** `Partial<FormField>`. A mandatory key is `Some(v)` when the patch sets
      it; an optional key is `Some(v)` when the patch carries the key, `v`
      itself being `None` when the patch sets it to `undefined`. */
  datatype FieldPatch = FieldPatch(
    id: Option<string>,
    kind: Option<FieldType>,
    caption: Option<string>,
    placeholder: Option<Option<string>>,
    required: Option<bool>,
    showInStory: Option<bool>,
    options: Option<Option<seq<string>>>)

  const EmptyPatch := FieldPatch(None, None, None, None, None, None, None)

  /** The patch `{ options: o }` used by every option handler. */
  function OptionsPatch(o: Option<seq<string>>): FieldPatch {
    EmptyPatch.(options := Some(o))
  }

  /** `{ ...f, ...p }` */
  function MergeField(f: FormField, p: FieldPatch): FormField {
    FormField(
      Override(f.id, p.id),
      Override(f.kind, p.kind),
      Override(f.caption, p.caption),
      Override(f.placeholder, p.placeholder),
      Override(f.required, p.required),
      Override(f.showInStory, p.showInStory),
      Override(f.options, p.options))
  }

  /** `updateField(id, updates)`: the list keeps its length and order, every
      field whose id matches gets the patch merged over it, every other field
      is untouched; an id that matches nothing changes nothing. */
  function UpdateField(fields: seq<FormField>, id: string, p: FieldPatch): (r: seq<FormField>)
    ensures |r| == |fields|
    ensures forall i :: 0 <= i < |fields| && fields[i].id == id ==> r[i] == MergeField(fields[i], p)
    ensures forall i :: 0 <= i < |fields| && fields[i].id != id ==> r[i] == fields[i]
    ensures (forall i :: 0 <= i < |fields| ==> fields[i].id != id) ==> r == fields
  {
    Lists.MapWhere(fields, (g: FormField) => g.id == id, (g: FormField) => MergeField(g, p))
  }

  /** The question `addField` creates. */
  function NewField(freshId: string): FormField {
    FormField(freshId, TextInput, "New Question", None, true, false, None)
  }

  /** `addField()`: exactly one field is appended, a required text question
      labelled "New Question" that is not shown on the story; the old list is
      an unchanged prefix. The id (`f${Date.now()}` in the source) is a
      parameter. */
  function AddField(fields: seq<FormField>, freshId: string): (r: seq<FormField>)
    ensures |r| == |fields| + 1
    ensures r[..|fields|] == fields
    ensures r[|fields|].id == freshId && r[|fields|].kind == TextInput
    ensures r[|fields|].caption == "New Question"
    ensures r[|fields|].required && !r[|fields|].showInStory
    ensures r[|fields|].placeholder.None? && r[|fields|].options.None?
  {
    fields + [NewField(freshId)]
  }

  /** `removeField(id)`: keeps exactly the fields with another id, in order. */
  function RemoveField(fields: seq<FormField>, id: string): (r: seq<FormField>)
    ensures forall i :: 0 <= i < |r| ==> r[i].id != id
    ensures forall g :: g in fields && g.id != id ==> g in r
    ensures forall g :: g in r ==> g in fields
    ensures (exists i :: 0 <= i < |fields| && fields[i].id == id) ==> |r| < |fields|
  {
    Lists.FilterMembers(fields, (g: FormField) => g.id != id);
    Lists.Filter(fields, (g: FormField) => g.id != id)
  }

  /** Adding a question with an id no existing question carries and then
      removing that id restores the list, content and order. */
  lemma AddThenRemove(fields: seq<FormField>, freshId: string)
    requires forall i :: 0 <= i < |fields| ==> fields[i].id != freshId
    ensures RemoveField(AddField(fields, freshId), freshId) == fields
  {
    var keep := (g: FormField) => g.id != freshId;
    Lists.FilterAppend(fields, [NewField(freshId)], keep);
    Lists.FilterAllKept(fields, keep);
    assert Lists.Filter([NewField(freshId)], keep) == [];
  }

  /** Removal works question by question, so it never reorders: removing
      from `a + b` is removing from `a`, then from `b`. */
  lemma RemoveFieldSplit(a: seq<FormField>, b: seq<FormField>, id: string)
    ensures RemoveField(a + b, id) == RemoveField(a, id) + RemoveField(b, id)
  {
    Lists.FilterAppend(a, b, (g: FormField) => g.id != id);
  }

  /** A single question is kept exactly when its id differs. */
  lemma RemoveFieldSingle(g: FormField, id: string)
    ensures RemoveField([g], id) == if g.id != id then [g] else []
  {
    assert [g][1..] == [];
  }

  /** Position `k` holds the first field with id `id`. */
  predicate FirstFieldAt(fields: seq<FormField>, id: string, k: nat) {
    k < |fields| && fields[k].id == id && forall j :: 0 <= j < k ==> fields[j].id != id
  }

  /** `fields.find(f => f.id === id)`: the first field with that id; with
      unique ids, the field at that id's position. */
  function FindField(fields: seq<FormField>, id: string): (r: Option<FormField>)
    ensures r.None? <==> forall i :: 0 <= i < |fields| ==> fields[i].id != id
    ensures r.Some? ==> r.value in fields && r.value.id == id
    ensures forall k: nat :: FirstFieldAt(fields, id, k) ==> r == Some(fields[k])
    ensures UniqueFieldIds(fields) ==> forall k :: 0 <= k < |fields| && fields[k].id == id ==> r == Some(fields[k])
  {
    var p := (g: FormField) => g.id == id;
    var r := Lists.FindFirst(fields, p);
    assert forall k: nat :: FirstFieldAt(fields, id, k) ==> Lists.FirstIndex(fields, p) == k by {
      forall k: nat | FirstFieldAt(fields, id, k)
        ensures Lists.FirstIndex(fields, p) == k
      {
        assert p(fields[k]);
      }
    }
    assert UniqueFieldIds(fields) ==> forall k :: 0 <= k < |fields| && fields[k].id == id ==> Lists.FirstIndex(fields, p) == k by {
      if UniqueFieldIds(fields) {
        forall k | 0 <= k < |fields| && fields[k].id == id
          ensures Lists.FirstIndex(fields, p) == k
        {
          assert p(fields[k]);
        }
      }
    }
    r
  }

  datatype Direction = Up | Down

  /** The swap `moveOption` performs on the option list: "up" exchanges
      `index` with its predecessor unless it is the first, "down" with its
      successor unless it is the last; otherwise nothing moves. */
  function StepOptions(opts: seq<string>, index: nat, dir: Direction): (r: seq<string>)
    requires index < |opts|
    ensures |r| == |opts| && multiset(r) == multiset(opts)
    ensures dir == Up && index > 0 ==>
      r[index - 1] == opts[index] && r[index] == opts[index - 1]
      && forall j :: 0 <= j < |opts| && j != index && j != index - 1 ==> r[j] == opts[j]
    ensures dir == Down && index + 1 < |opts| ==>
      r[index + 1] == opts[index] && r[index] == opts[index + 1]
      && forall j :: 0 <= j < |opts| && j != index && j != index + 1 ==> r[j] == opts[j]
    ensures (dir == Up && index == 0) || (dir == Down && index + 1 == |opts|) ==> r == opts
  {
    if dir == Up && index > 0 then
      Lists.SwapInvolution(opts, index, index - 1);
      Lists.Swap(opts, index, index - 1)
    else if dir == Down && index < |opts| - 1 then
      Lists.SwapInvolution(opts, index, index + 1);
      Lists.Swap(opts, index, index + 1)
    else
      opts
  }

  /** The editor only offers arrows next to options that exist: `index`
      addresses an option of the first field with that id. */
  predicate ValidOptionIndex(fields: seq<FormField>, fieldId: string, index: nat) {
    var f := FindField(fields, fieldId);
    f.Some? && f.value.options.Some? ==> index < |f.value.options.value|
  }

  /** `moveOption(fieldId, index, direction)`: a missing field or a field
      without options leaves the list as it was; otherwise every field with
      that id receives the first such field's options with one adjacent swap,
      and no other field changes. */
  function MoveOption(fields: seq<FormField>, fieldId: string, index: nat, dir: Direction): (r: seq<FormField>)
    requires ValidOptionIndex(fields, fieldId, index)
    ensures |r| == |fields|
    ensures FindField(fields, fieldId).None? || FindField(fields, fieldId).value.options.None? ==> r == fields
    ensures forall i :: 0 <= i < |fields| && fields[i].id != fieldId ==> r[i] == fields[i]
    ensures FindField(fields, fieldId).Some? && FindField(fields, fieldId).value.options.Some? ==>
      var opts := FindField(fields, fieldId).value.options.value;
      forall i :: 0 <= i < |fields| && fields[i].id == fieldId ==>
        r[i] == fields[i].(options := Some(StepOptions(opts, index, dir)))
  {
    match FindField(fields, fieldId)
    case None => fields
    case Some(f) =>
      if f.options.None? then fields
      else UpdateField(fields, fieldId, OptionsPatch(Some(StepOptions(f.options.value, index, dir))))
  }

  /** With unique ids, a patch that leaves ids alone touches position `k`
      only and keeps the ids unique. */
  lemma UpdateUnique(fields: seq<FormField>, k: nat, p: FieldPatch)
    requires UniqueFieldIds(fields) && k < |fields| && p.id.None?
    ensures UpdateField(fields, fields[k].id, p) == fields[k := MergeField(fields[k], p)]
    ensures UniqueFieldIds(fields[k := MergeField(fields[k], p)])
  {
    var r := UpdateField(fields, fields[k].id, p);
    forall j | 0 <= j < |fields| ensures r[j] == fields[k := MergeField(fields[k], p)][j] {
      if fields[j].id == fields[k].id {
        assert j == k;
      }
    }
  }

  /** With unique ids, moving an option of the question at `k` rewrites
      that question's options and nothing else. */
  lemma MoveOptionAt(fields: seq<FormField>, k: nat, i: nat, dir: Direction)
    requires UniqueFieldIds(fields)
    requires k < |fields| && fields[k].options.Some? && i < |fields[k].options.value|
    ensures ValidOptionIndex(fields, fields[k].id, i)
    ensures MoveOption(fields, fields[k].id, i, dir)
      == fields[k := fields[k].(options := Some(StepOptions(fields[k].options.value, i, dir)))]
    ensures UniqueFieldIds(MoveOption(fields, fields[k].id, i, dir))
  {
    UpdateUnique(fields, k, OptionsPatch(Some(StepOptions(fields[k].options.value, i, dir))));
  }

  /** Moving option `i` up and then option `i - 1` down restores the
      option list. */
  lemma StepUpThenDown(o: seq<string>, i: nat)
    requires 0 < i < |o|
    ensures StepOptions(StepOptions(o, i, Up), i - 1, Down) == o
  {
  }

  /** Moving option `i` up and then option `i - 1` down restores the form. */
  lemma MoveUpThenDown(fields: seq<FormField>, k: nat, i: nat)
    requires UniqueFieldIds(fields)
    requires k < |fields| && fields[k].options.Some?
    requires 0 < i < |fields[k].options.value|
    ensures ValidOptionIndex(fields, fields[k].id, i)
    ensures ValidOptionIndex(MoveOption(fields, fields[k].id, i, Up), fields[k].id, i - 1)
    ensures MoveOption(MoveOption(fields, fields[k].id, i, Up), fields[k].id, i - 1, Down) == fields
  {
    var o := fields[k].options.value;
    var up := StepOptions(o, i, Up);
    MoveOptionAt(fields, k, i, Up);
    var once := fields[k := fields[k].(options := Some(up))];
    assert once[k].id == fields[k].id && once[k].options == Some(up);
    MoveOptionAt(once, k, i - 1, Down);
    StepUpThenDown(o, i);
    assert once[k := once[k].(options := Some(o))] == fields;
  }

  /** The three options a choice question receives when it has none. */
  const DefaultOptions: seq<string> := ["Option 1", "Option 2", "Option 3"]

  /** Whether switching `f` to kind `t` fills in the default options: only
      for a choice kind and only when the field has no options or an empty
      list. */
  predicate NeedsDefaults(f: FormField, t: FieldType) {
    IsChoice(t) && (f.options.None? || f.options.value == [])
  }

  /** The patch the kind selector builds. */
  function TypeSwitchPatch(f: FormField, t: FieldType): FieldPatch {
    if NeedsDefaults(f, t) then EmptyPatch.(kind := Some(t), options := Some(Some(DefaultOptions)))
    else EmptyPatch.(kind := Some(t))
  }

  /** Choosing kind `t` in the selector of the question at position `k`:
      the fields with that id take the new kind; their options become the
      three defaults when the question had no (or no non-empty) options and
      `t` is a choice kind, and are left untouched in every other case. */
  function SwitchType(fields: seq<FormField>, k: nat, t: FieldType): (r: seq<FormField>)
    requires k < |fields|
    ensures |r| == |fields|
    ensures forall i :: 0 <= i < |fields| && fields[i].id != fields[k].id ==> r[i] == fields[i]
    ensures forall i :: 0 <= i < |fields| && fields[i].id == fields[k].id ==>
      r[i] == fields[i].(kind := t, options := if NeedsDefaults(fields[k], t) then Some(DefaultOptions) else fields[i].options)
    ensures r[k].kind == t
    ensures r[k].options.Some? && r[k].options.value != [] ==> !IsChoice(t) || r[k].options == fields[k].options || r[k].options == Some(DefaultOptions)
    ensures IsChoice(t) ==> r[k].options.Some? && r[k].options.value != []
  {
    UpdateField(fields, fields[k].id, TypeSwitchPatch(fields[k], t))
  }

  /** The option inputs and their buttons exist only for options that are
      there. */
  predicate HasOption(fields: seq<FormField>, k: nat, optIdx: nat) {
    k < |fields| && fields[k].options.Some? && optIdx < |fields[k].options.value|
  }

  /** Typing into option `optIdx` of the question at `k`: only that position
      of the option list changes. */
  function EditOption(fields: seq<FormField>, k: nat, optIdx: nat, text: string): (r: seq<FormField>)
    requires HasOption(fields, k, optIdx)
    ensures |r| == |fields|
    ensures forall i :: 0 <= i < |fields| && fields[i].id != fields[k].id ==> r[i] == fields[i]
    ensures forall i :: 0 <= i < |fields| && fields[i].id == fields[k].id ==>
      r[i] == fields[i].(options := r[k].options)
    ensures r[k].options.Some? && |r[k].options.value| == |fields[k].options.value|
    ensures r[k].options.value[optIdx] == text
    ensures forall j :: 0 <= j < |fields[k].options.value| && j != optIdx ==>
      r[k].options.value[j] == fields[k].options.value[j]
  {
    var o := fields[k].options.value;
    UpdateField(fields, fields[k].id, OptionsPatch(Some(o[optIdx := text])))
  }

  /** The delete button of option `optIdx`: exactly that position goes, the
      rest keep their order; a question without options keeps none. */
  function RemoveOption(fields: seq<FormField>, k: nat, optIdx: nat): (r: seq<FormField>)
    requires k < |fields|
    ensures |r| == |fields|
    ensures forall i :: 0 <= i < |fields| && fields[i].id != fields[k].id ==> r[i] == fields[i]
    ensures forall i :: 0 <= i < |fields| && fields[i].id == fields[k].id ==>
      r[i] == fields[i].(options := r[k].options)
    ensures fields[k].options.None? ==> r[k].options.None?
    ensures HasOption(fields, k, optIdx) ==>
      r[k].options == Some(Lists.RemoveAt(fields[k].options.value, optIdx))
  {
    match fields[k].options
    case None => UpdateField(fields, fields[k].id, OptionsPatch(None))
    case Some(o) =>
      var kept := if optIdx < |o| then Lists.RemoveAt(o, optIdx) else o;
      UpdateField(fields, fields[k].id, OptionsPatch(Some(kept)))
  }

  /** "Add Option": "New Option" is appended after the existing options (an
      absent list counts as empty). */
  function AddOption(fields: seq<FormField>, k: nat): (r: seq<FormField>)
    requires k < |fields|
    ensures |r| == |fields|
    ensures forall i :: 0 <= i < |fields| && fields[i].id != fields[k].id ==> r[i] == fields[i]
    ensures forall i :: 0 <= i < |fields| && fields[i].id == fields[k].id ==>
      r[i] == fields[i].(options := r[k].options)
    ensures r[k].options == Some(fields[k].options.GetOr([]) + ["New Option"])
  {
    UpdateField(fields, fields[k].id, OptionsPatch(Some(fields[k].options.GetOr([]) + ["New Option"])))
  }

  /** Deleting the option that "Add Option" just appended restores the
      question. */
  lemma AddThenRemoveOption(fields: seq<FormField>, k: nat)
    requires UniqueFieldIds(fields)
    requires k < |fields| && fields[k].options.Some?
    ensures RemoveOption(AddOption(fields, k), k, |fields[k].options.value|) == fields
  {
    var o := fields[k].options.value;
    var added := AddOption(fields, k);
    assert added[k].id == fields[k].id;
    assert Lists.RemoveAt(o + ["New Option"], |o|) == o;
    var r := RemoveOption(added, k, |o|);
    forall j | 0 <= j < |fields| ensures r[j] == fields[j] {
      if fields[j].id == fields[k].id {
        assert j == k;
      }
    }
  }

  /** Typing the previous text back into an option restores the form. */
  lemma EditOptionRestore(fields: seq<FormField>, k: nat, optIdx: nat, text: string)
    requires UniqueFieldIds(fields) && HasOption(fields, k, optIdx)
    ensures HasOption(EditOption(fields, k, optIdx, text), k, optIdx)
    ensures EditOption(EditOption(fields, k, optIdx, text), k, optIdx, fields[k].options.value[optIdx]) == fields
  {
    var o := fields[k].options.value;
    var once := EditOption(fields, k, optIdx, text);
    assert once[k].id == fields[k].id;
    var back := EditOption(once, k, optIdx, o[optIdx]);
    assert back[k].options.value == o;
    forall j | 0 <= j < |fields| ensures back[j] == fields[j] {
      if fields[j].id == fields[k].id {
        assert j == k;
      }
    }
  }
}

=== FILE: fixtures.dfy ===
/** The constant data the pages start from: the default landing page, the
    default (canvas-shaped) story configuration, the demo form list, and the
    builder's initial draft. Worked examples check the model against them. */
module Fixtures {
  import opened Wrappers
  import opened Types
  import StoryPreview
  import Participant
  import Text
  import Lists

  const DefaultLandingConfig := LandingConfig([
    LandingBlock("b1", Hero, Some("Web Dev Bootcamp Batch 10"),
      Some("Master Fullstack Development in 12 Weeks. Join the most intensive coding community."),
      None, None, Some(BlockStyle(Some("bg-white"), Some("text-slate-900"), Some(Center), Some(Lg)))),
    LandingBlock("b2", Features, Some("What you will learn"), None, None,
      Some([FeatureItem("React & Next.js", "Build modern UIs", None),
            FeatureItem("Node & Supabase", "Scalable backends", None),
            FeatureItem("System Design", "Architect like a pro", None)]),
      Some(BlockStyle(Some("bg-slate-50"), Some("text-slate-900"), Some(Center), Some(Md))))])

  const DefaultStoryConfig := CanvasStory("#6366F1", [
    StoryElement("bg-shape-1", ShapeElement, None, 10, 10, Some(80), Some(80), false),
    StoryElement("title", TextElement, Some("YOU'RE IN!"), 50, 20, None, None, false),
    StoryElement("participant-label", TextElement, Some("PARTICIPANT"), 50, 35, None, None, false),
    StoryElement("participant-name", TextElement, Some("{Full Name}"), 50, 40, None, None, true),
    StoryElement("footer-text", TextElement, Some("See you at the bootcamp! 🚀"), 50, 70, None, None, false),
    StoryElement("brand", TextElement, Some("WRAPPED FORM"), 50, 90, None, None, false)])

  const MockFields := [
    FormField("name", TextInput, "Full Name", Some("Jane Doe"), true, true, None),
    FormField("email", EmailInput, "Email Address", Some("jane@example.com"), true, false, None),
    FormField("exp", SelectInput, "Experience Level", None, true, true, Some(["Beginner", "Intermediate", "Pro"]))]

  const MockForms := [
    Form("f1", None, "Web Dev Bootcamp Batch 10", "Register for the upcoming intensive coding bootcamp.",
      Active, MockFields, DefaultStoryConfig, DefaultLandingConfig, Stats(1205, 247, 156), Some("2023-10-15"))]

  /** The builder's starting draft; its creation time is left out. */
  const InitialForm := Form("new", None, "My Awesome Event", "", Draft,
    [FormField("f1", TextInput, "Full Name", Some("Enter your name"), true, true, None),
     FormField("f2", EmailInput, "Email", Some("name@example.com"), true, false, None)],
    DefaultStoryConfig, DefaultLandingConfig, Stats(0, 0, 0), None)

  /** An unknown form id shows the first demo form. */
  lemma UnknownIdShowsFirstDemo()
    ensures Participant.ResolveForm(MockForms, Some("missing")) == MockForms[0]
    ensures Participant.ResolveForm(MockForms, None) == MockForms[0]
  {
  }

  /** On the demo form the question with id `name` supplies the card's
      name. */
  lemma DemoCardName(answers: map<string, string>)
    requires "name" in answers
    ensures StoryPreview.ParticipantName(Some(answers), Some(MockFields)) == Some(answers["name"])
  {
    assert StoryPreview.FirstNameAt(MockFields, 0);
  }

  /** In the builder's starting draft the "Full Name" question (id f1)
      supplies the card's name. */
  lemma DraftCardName(answers: map<string, string>)
    requires "f1" in answers
    ensures StoryPreview.ParticipantName(Some(answers), Some(InitialForm.fields)) == Some(answers["f1"])
  {
    StoryPreview.FullNameIsNameField(InitialForm.fields[0]);
    assert StoryPreview.FirstNameAt(InitialForm.fields, 0);
  }

  /** On the demo form the name question is not listed and the email is not
      marked for the story, so the card lists the experience question alone. */
  lemma DemoCardLines()
    ensures StoryPreview.StoryFields(Some(MockFields)) == [MockFields[2]]
  {
    ExperienceInStory();
    NameAndEmailNotListed();
    OnlyThirdListed(MockFields[0], MockFields[1], MockFields[2]);
    assert MockFields == [MockFields[0], MockFields[1], MockFields[2]];
  }

  lemma OnlyThirdListed(f0: FormField, f1: FormField, f2: FormField)
    requires !StoryPreview.InStory(f0) && !StoryPreview.InStory(f1) && StoryPreview.InStory(f2)
    ensures StoryPreview.StoryFields(Some([f0, f1, f2])) == [f2]
  {
    var keep := StoryPreview.InStory;
    assert [f0, f1, f2] == [f0] + ([f1] + [f2]);
    Lists.FilterAppend([f0], [f1] + [f2], keep);
    Lists.FilterAppend([f1], [f2], keep);
  }

  /** The name question fails the test by its id, the email question is not
      marked for the story. */
  lemma NameAndEmailNotListed()
    ensures !StoryPreview.InStory(MockFields[0]) && !StoryPreview.InStory(MockFields[1])
  {
    assert MockFields[0].id == "name";
  }

  /** "Experience Level" does not mention a name, so the experience question
      is listed on the card. */
  lemma ExperienceInStory()
    ensures StoryPreview.InStory(MockFields[2])
  {
    var s := "Experience Level";
    assert Text.NoNA(s) by {
      forall i | 0 <= i < |s| - 1 && (s[i] == 'n' || s[i] == 'N')
        ensures s[i + 1] != 'a' && s[i + 1] != 'A'
      {
        assert i == 7;
      }
    }
    Text.NoNameWithoutNA(s);
  }

  /** The demo form's story configuration is canvas-shaped, so its card
      shows neither a headline nor the name section. */
  lemma DemoCardIsCanvas(styles: map<StoryTemplate, string>, answers: map<string, string>)
    ensures var c := StoryPreview.Render(MockForms[0].storyConfig, Some(answers), Some(MockFields), styles);
      c.name.None? && c.headline.None? && c.entries.Lines?
  {
  }
}

=== FILE: forms_db.dfy ===
/** The storage service (`db`): the rename between the client's
    `storyConfig` and the table's `story_config` column, the shape of the
    rows it sends, how backend errors surface, and the demo store used when
    no backend is configured. The backend itself is a parameter: each call
    receives the backend's response. */
module FormsDb {
  import opened Wrappers
  import opened Types
  import Lists

  /** A JSON-like value as it crosses the backend boundary. */
  datatype Json =
    | Undefined
    | Null
    | Bool(b: bool)
    | Num(n: int)
    | Str(s: string)
    | Arr(elems: seq<Json>)
    | Obj(members: map<string, Json>)

  /** A row (or a partial form) as a flat record of keys. */
  type Row = map<string, Json>

  /** `row.key`: `undefined` when the key is missing. */
  function Get(row: Row, key: string): (v: Json)
    ensures key !in row ==> v == Undefined
    ensures key in row ==> v == row[key]
  {
    Lookup(row, key).GetOr(Undefined)
  }

  /** JavaScript truthiness. */
  predicate Truthy(v: Json) {
    match v
    case Undefined => false
    case Null => false
    case Bool(b) => b
    case Num(n) => n != 0
    case Str(s) => s != ""
    case Arr(_) => true
    case Obj(_) => true
  }

  /** The read mapping applied by list, get and create:
      `{ ...row, storyConfig: row.story_config }`. Every stored key is kept,
      `story_config` included, and `storyConfig` is a copy of it (or
      `undefined`). */
  function FromDb(row: Row): (r: Row)
    ensures r.Keys == row.Keys + {"storyConfig"}
    ensures r["storyConfig"] == Get(row, "story_config")
    ensures forall k :: k in row && k != "storyConfig" ==> r[k] == row[k]
  {
    row["storyConfig" := Get(row, "story_config")]
  }

  /** The payload `update` sends: a truthy `storyConfig` travels as
      `story_config` and the camel-case key is dropped; every other key
      passes through. Without a truthy `storyConfig` the payload is the
      updates unchanged. */
  function ToDbUpdate(updates: Row): (r: Row)
    ensures Truthy(Get(updates, "storyConfig")) ==>
      && r.Keys == updates.Keys - {"storyConfig"} + {"story_config"}
      && r["story_config"] == updates["storyConfig"]
      && forall k :: k in updates && k != "storyConfig" && k != "story_config" ==> r[k] == updates[k]
    ensures !Truthy(Get(updates, "storyConfig")) ==> r == updates
  {
    if Truthy(Get(updates, "storyConfig")) then
      (updates - {"storyConfig"})["story_config" := updates["storyConfig"]]
    else
      updates
  }

  /** Round trip through an update: if the backend merges the payload into
      the stored row, reading that row back returns every updated key with
      the value it was given, `storyConfig` included when it is sent. An
      update without `storyConfig` (a title change, say) is covered too. */
  lemma UpdateThenRead(stored: Row, updates: Row)
    requires "storyConfig" in updates ==> Truthy(updates["storyConfig"])
    ensures var back := FromDb(stored + ToDbUpdate(updates));
      forall k :: k in updates && k != "story_config" ==> k in back && back[k] == updates[k]
  {
    var back := FromDb(stored + ToDbUpdate(updates));
    forall k | k in updates && k != "story_config"
      ensures k in back && back[k] == updates[k]
    {
      if k == "storyConfig" {
        assert Get(stored + ToDbUpdate(updates), "story_config") == updates["storyConfig"];
      }
    }
  }

  /** An update whose `storyConfig` is present but falsy (`null`, say) fails
      the truthiness guard, so the camel-case key is sent as it is and the
      stored `story_config` column keeps its value; reading back yields the
      old story configuration, not the one given. Every other key still
      reads back. */
  lemma UpdateFalsyStoryConfig(stored: Row, updates: Row)
    requires "storyConfig" in updates && !Truthy(updates["storyConfig"])
    ensures var back := FromDb(stored + ToDbUpdate(updates));
      && back["storyConfig"] == Get(stored + updates, "story_config")
      && forall k :: k in updates && k != "storyConfig" ==> k in back && back[k] == updates[k]
  {
    assert ToDbUpdate(updates) == updates;
  }

  /** The columns `create` inserts. */
  const InsertColumns: set<string> := {"user_id", "title", "description", "status", "fields", "story_config", "stats"}

  /** The row `create` inserts: the owner, the five listed form keys, and the
      story configuration under its column name. The landing page, the id and
      the creation time are not sent. */
  function CreateInsert(form: Row, userId: string): (r: Row)
    ensures r.Keys == InsertColumns
    ensures r["user_id"] == Str(userId)
    ensures r["story_config"] == Get(form, "storyConfig")
    ensures forall k :: k in {"title", "description", "status", "fields", "stats"} ==> r[k] == Get(form, k)
    ensures "landingConfig" !in r
  {
    map[
      "user_id" := Str(userId),
      "title" := Get(form, "title"),
      "description" := Get(form, "description"),
      "status" := Get(form, "status"),
      "fields" := Get(form, "fields"),
      "story_config" := Get(form, "storyConfig"),
      "stats" := Get(form, "stats")]
  }

  /** Through `create` the story configuration survives and the landing page
      is lost: reading back the inserted row (plus whatever columns the
      backend adds, none of them `landingConfig`) gives the form's
      `storyConfig` and no `landingConfig`. */
  lemma CreateRoundTrip(form: Row, userId: string, added: Row)
    requires "landingConfig" !in added
    requires added.Keys !! InsertColumns
    ensures FromDb(CreateInsert(form, userId) + added)["storyConfig"] == Get(form, "storyConfig")
    ensures "landingConfig" !in FromDb(CreateInsert(form, userId) + added)
  {
    var stored := CreateInsert(form, userId) + added;
    assert Get(stored, "story_config") == Get(form, "storyConfig");
  }

  /** What the backend answered: rows, or an error. */
  datatype Response<T> = Data(value: T) | Error(message: string)

  /** `list` on the backend: rows come back read-mapped, in the backend's
      order; an error is thrown. */
  function List(resp: Response<seq<Row>>): (r: Result<seq<Row>, string>)
    ensures resp.Error? <==> r.Failure?
    ensures resp.Data? ==> |r.value| == |resp.value|
    ensures resp.Data? ==> forall i :: 0 <= i < |resp.value| ==> r.value[i] == FromDb(resp.value[i])
  {
    match resp
    case Error(e) => Failure(e)
    case Data(rows) => Success(Lists.MapAll(rows, FromDb))
  }

  /** `get` on the backend: the read-mapped row, or `null` on any error. */
  function GetOne(resp: Response<Row>): (r: Option<Row>)
    ensures resp.Error? <==> r.None?
    ensures resp.Data? ==> r == Some(FromDb(resp.value))
  {
    match resp
    case Error(_) => None
    case Data(row) => Some(FromDb(row))
  }

  /** `create` on the backend: the row it inserts, and the read-mapped
      stored row or the thrown error. */
  function Create(form: Row, userId: string, resp: Response<Row>): (r: (Row, Result<Row, string>))
    ensures r.0 == CreateInsert(form, userId)
    ensures resp.Error? <==> r.1.Failure?
    ensures resp.Data? ==> r.1.value == FromDb(resp.value)
  {
    (CreateInsert(form, userId), match resp
      case Error(e) => Failure(e)
      case Data(row) => Success(FromDb(row)))
  }

  /** `update` on the backend: the payload it sends, and success or the
      thrown error. */
  function Update(updates: Row, resp: Response<()>): (r: (Row, Result<(), string>))
    ensures r.0 == ToDbUpdate(updates)
    ensures resp.Error? <==> r.1.Failure?
  {
    (ToDbUpdate(updates), match resp
      case Error(e) => Failure(e)
      case Data(_) => Success(()))
  }

  /** The row `submissions.create` inserts on the backend. */
  function SubmissionInsert(formId: string, answers: map<string, string>): (r: Row)
    ensures r.Keys == {"form_id", "data"}
    ensures r["form_id"] == Str(formId)
    ensures r["data"].Obj? && r["data"].members.Keys == answers.Keys
    ensures forall k :: k in answers ==> r["data"].members[k] == Str(answers[k])
  {
    map["form_id" := Str(formId), "data" := Obj(map k | k in answers :: Str(answers[k]))]
  }

  /** `submissions.create` on the backend: the row it inserts, and the
      returned row as it comes back (no read mapping) or the thrown error. */
  function CreateSubmission(formId: string, answers: map<string, string>, resp: Response<Row>): (r: (Row, Result<Row, string>))
    ensures r.0 == SubmissionInsert(formId, answers)
    ensures resp.Error? <==> r.1.Failure?
    ensures resp.Error? ==> r.1.error == resp.message
    ensures resp.Data? ==> r.1.value == resp.value
  {
    (SubmissionInsert(formId, answers), match resp
      case Error(e) => Failure(e)
      case Data(row) => Success(row))
  }

  /** Reads the answers back from a stored `data` column: an object whose
      members are all strings; anything else is not an answer map. */
  function AnswersOf(data: Json): (r: Option<map<string, string>>)
    ensures r.Some? <==> data.Obj? && forall k :: k in data.members ==> data.members[k].Str?
    ensures r.Some? ==> r.value.Keys == data.members.Keys
    ensures r.Some? ==> forall k :: k in r.value ==> data.members[k] == Str(r.value[k])
  {
    if data.Obj? && forall k :: k in data.members ==> data.members[k].Str? then
      Some(map k | k in data.members :: data.members[k].s)
    else
      None
  }

  /** The submitted answers read back unchanged from the inserted row. */
  lemma SubmissionRoundTrip(formId: string, answers: map<string, string>)
    ensures AnswersOf(SubmissionInsert(formId, answers)["data"]) == Some(answers)
  {
    var back := AnswersOf(SubmissionInsert(formId, answers)["data"]);
    assert back.value == answers;
  }

  /** Reads the row the backend returns after the insert as a `Submission`:
      string `id`, `form_id` and `created_at` and an answer map under
      `data`; any other row is not a submission. */
  function SubmissionOf(row: Row): (r: Option<Submission>)
    ensures r.Some? <==> Get(row, "id").Str? && Get(row, "form_id").Str? && Get(row, "created_at").Str?
                         && AnswersOf(Get(row, "data")).Some?
    ensures r.Some? ==> Str(r.value.id) == row["id"] && Str(r.value.formId) == row["form_id"]
                        && Str(r.value.createdAt) == row["created_at"]
                        && Some(r.value.data) == AnswersOf(row["data"])
  {
    var id, formId, data, createdAt := Get(row, "id"), Get(row, "form_id"), Get(row, "data"), Get(row, "created_at");
    if id.Str? && formId.Str? && createdAt.Str? && AnswersOf(data).Some? then
      Some(Submission(id.s, formId.s, AnswersOf(data).value, createdAt.s))
    else
      None
  }

  /** The row returned for an insert is the inserted row plus the id and
      timestamp the backend assigns; it reads back as the submission of
      those answers to that form. */
  lemma SubmissionCreated(formId: string, answers: map<string, string>, id: string, createdAt: string)
    ensures SubmissionOf(SubmissionInsert(formId, answers)["id" := Str(id)]["created_at" := Str(createdAt)])
            == Some(Submission(id, formId, answers, createdAt))
  {
    var row := SubmissionInsert(formId, answers)["id" := Str(id)]["created_at" := Str(createdAt)];
    SubmissionRoundTrip(formId, answers);
    assert row["data"] == SubmissionInsert(formId, answers)["data"];
  }

  /** The demo store: the fixture forms and the forms created locally. */
  datatype Store = Store(fixtures: seq<Form>, local: seq<Form>)

  /** The demo `list`: the fixtures, then the local forms, in that order. */
  function MockList(st: Store): (r: seq<Form>)
    ensures |r| == |st.fixtures| + |st.local|
    ensures r[..|st.fixtures|] == st.fixtures && r[|st.fixtures|..] == st.local
  {
    st.fixtures + st.local
  }

  /** Position `k` of the list holds the first form with id `id`. */
  predicate FirstFormAt(forms: seq<Form>, id: string, k: nat) {
    k < |forms| && forms[k].id == id && forall j :: 0 <= j < k ==> forms[j].id != id
  }

  /** The demo `get`: the first form with that id in the listed order, or
      `null`. */
  function MockGet(st: Store, id: string): (r: Option<Form>)
    ensures r.None? <==> forall i :: 0 <= i < |MockList(st)| ==> MockList(st)[i].id != id
    ensures forall k: nat :: FirstFormAt(MockList(st), id, k) ==> r == Some(MockList(st)[k])
  {
    var all := MockList(st);
    var p := (f: Form) => f.id == id;
    var k := Lists.FirstIndex(all, p);
    assert forall k': nat :: FirstFormAt(all, id, k') ==> k == k' by {
      forall k': nat | FirstFormAt(all, id, k') ensures k == k' {
        assert p(all[k']);
      }
    }
    if k < |all| then Some(all[k]) else None
  }

  /** The demo `create`: the form with the fresh id (`f${Date.now()}` in the
      source, a parameter here) is appended to the local forms and returned;
      the fixtures and earlier local forms are untouched. */
  function MockCreate(st: Store, form: Form, freshId: string): (r: (Store, Form))
    ensures r.1 == form.(id := freshId)
    ensures r.0.fixtures == st.fixtures
    ensures |r.0.local| == |st.local| + 1 && r.0.local[..|st.local|] == st.local && r.0.local[|st.local|] == r.1
  {
    var created := form.(id := freshId);
    (Store(st.fixtures, st.local + [created]), created)
  }

  /** The demo `update` does nothing. */
  function MockUpdate(st: Store, id: string, updates: Row): (r: Store)
    ensures r == st
  {
    st
  }

  /** After a create with an id no listed form carries, the list grows by
      exactly the new form at the end and `get` with the fresh id finds it. */
  lemma CreateThenGet(st: Store, form: Form, freshId: string)
    requires forall i :: 0 <= i < |MockList(st)| ==> MockList(st)[i].id != freshId
    ensures MockList(MockCreate(st, form, freshId).0) == MockList(st) + [form.(id := freshId)]
    ensures MockGet(MockCreate(st, form, freshId).0, freshId) == Some(form.(id := freshId))
  {
    var after := MockCreate(st, form, freshId).0;
    assert MockList(after) == MockList(st) + [form.(id := freshId)];
    assert FirstFormAt(MockList(after), freshId, |MockList(st)|);
  }

  /** A fixture shadows any local form with the same id: `get` returns the
      first fixture with that id whatever has been created since. */
  lemma FixturesShadow(st: Store, k: nat, id: string)
    requires FirstFormAt(st.fixtures, id, k)
    ensures MockGet(st, id) == Some(st.fixtures[k])
  {
    assert FirstFormAt(MockList(st), id, k);
  }
}

=== FILE: landing_composer.dfy ===
/** The landing-page editor of the builder page: the ordered list of page
    sections (blocks), the selected block, and the index of the block being
    dragged. Drops from the palette insert new blocks; drops of a block onto
    another block move it. */
module LandingComposer {
  import opened Wrappers
  import opened Types
  import Lists

  /** `Partial<LandingBlock>`, with the same key conventions as a field
      patch: `Some(v)` means the key is present in the patch. */
  datatype BlockPatch = BlockPatch(
    id: Option<string>,
    kind: Option<BlockType>,
    title: Option<Option<string>>,
    content: Option<Option<string>>,
    image: Option<Option<string>>,
    items: Option<Option<seq<FeatureItem>>>,
    style: Option<Option<BlockStyle>>)

  const EmptyBlockPatch := BlockPatch(None, None, None, None, None, None, None)

  /** `Partial<BlockStyle>` */
  datatype StylePatch = StylePatch(
    backgroundColor: Option<Option<string>>,
    textColor: Option<Option<string>>,
    textAlign: Option<Option<TextAlign>>,
    padding: Option<Option<Padding>>)

  /** The builder's landing state: the page (`form.landingConfig.blocks`),
      `selectedBlockId` and `draggedBlockIndex`. */
  datatype Composer = Composer(blocks: seq<LandingBlock>, selected: Option<string>, dragged: Option<nat>)

  const DefaultContent := "Add your content here. Click to edit this text directly."
  const DefaultStyle := BlockStyle(Some("bg-white"), Some("text-slate-900"), Some(Left), Some(Md))

  /** The block `addBlock` builds; the id (`b${Date.now()}` in the source) is
      a parameter. */
  function NewBlock(t: BlockType, id: string): LandingBlock {
    LandingBlock(
      id, t,
      Some(if t == Hero then "Welcome Event" else "Section Title"),
      Some(DefaultContent),
      None,
      if t == Features then Some([FeatureItem("Feature 1", "Description", None)]) else None,
      Some(DefaultStyle))
  }

  /** Where `addBlock` puts the new block in a page of `n` blocks: spliced
      in at `index` when one is given, appended otherwise. */
  function Slot(index: Option<nat>, n: nat): (k: nat)
    ensures k <= n
    ensures index.None? ==> k == n
    ensures index.Some? && index.value <= n ==> k == index.value
  {
    match index
    case None => n
    case Some(i) => Lists.InsertionPoint(i, n)
  }

  /** `addBlock(type, index?)`: the page grows by exactly one block, which
      sits at the requested position (or last); removing it gives back the
      old page, so the other blocks keep their order. Hero blocks are titled
      "Welcome Event", the others "Section Title"; only features blocks carry
      items. The new block becomes the selection. */
  function AddBlock(c: Composer, t: BlockType, index: Option<nat>, freshId: string): (r: Composer)
    ensures |r.blocks| == |c.blocks| + 1
    ensures r.blocks[Slot(index, |c.blocks|)].id == freshId
    ensures r.blocks[Slot(index, |c.blocks|)].kind == t
    ensures r.blocks[Slot(index, |c.blocks|)].title == Some(if t == Hero then "Welcome Event" else "Section Title")
    ensures r.blocks[Slot(index, |c.blocks|)].items.Some? <==> t == Features
    ensures r.blocks[Slot(index, |c.blocks|)].content == Some(DefaultContent)
    ensures r.blocks[Slot(index, |c.blocks|)].style == Some(DefaultStyle)
    ensures t == Features ==> r.blocks[Slot(index, |c.blocks|)].items == Some([FeatureItem("Feature 1", "Description", None)])
    ensures r.blocks[Slot(index, |c.blocks|)] == NewBlock(t, freshId)
    ensures Lists.RemoveAt(r.blocks, Slot(index, |c.blocks|)) == c.blocks
    ensures r.selected == Some(freshId) && r.dragged == c.dragged
  {
    var k := Slot(index, |c.blocks|);
    var blocks := Lists.InsertAt(c.blocks, k, NewBlock(t, freshId));
    Lists.RemoveInserted(c.blocks, k, NewBlock(t, freshId));
    Composer(blocks, Some(freshId), c.dragged)
  }

  /** `{ ...b, ...p }` */
  function MergeBlock(b: LandingBlock, p: BlockPatch): LandingBlock {
    LandingBlock(
      Override(b.id, p.id),
      Override(b.kind, p.kind),
      Override(b.title, p.title),
      Override(b.content, p.content),
      Override(b.image, p.image),
      Override(b.items, p.items),
      Override(b.style, p.style))
  }

  /** `updateBlock(id, updates)`: a shallow merge into the blocks with that
      id; every other block, the selection and the tracker are untouched. */
  function UpdateBlock(c: Composer, id: string, p: BlockPatch): (r: Composer)
    ensures |r.blocks| == |c.blocks|
    ensures forall i :: 0 <= i < |c.blocks| && c.blocks[i].id == id ==> r.blocks[i] == MergeBlock(c.blocks[i], p)
    ensures forall i :: 0 <= i < |c.blocks| && c.blocks[i].id != id ==> r.blocks[i] == c.blocks[i]
    ensures r.selected == c.selected && r.dragged == c.dragged
  {
    c.(blocks := Lists.MapWhere(c.blocks, (b: LandingBlock) => b.id == id, (b: LandingBlock) => MergeBlock(b, p)))
  }

  /** `{ ...style, ...p }`, where a missing style spreads as an empty object. */
  function MergeStyle(style: Option<BlockStyle>, p: StylePatch): (r: BlockStyle)
    ensures p.backgroundColor.None? ==> r.backgroundColor == (if style.Some? then style.value.backgroundColor else None)
    ensures p.textColor.None? ==> r.textColor == (if style.Some? then style.value.textColor else None)
    ensures p.textAlign.None? ==> r.textAlign == (if style.Some? then style.value.textAlign else None)
    ensures p.padding.None? ==> r.padding == (if style.Some? then style.value.padding else None)
    ensures p.backgroundColor.Some? ==> r.backgroundColor == p.backgroundColor.value
    ensures p.textColor.Some? ==> r.textColor == p.textColor.value
    ensures p.textAlign.Some? ==> r.textAlign == p.textAlign.value
    ensures p.padding.Some? ==> r.padding == p.padding.value
  {
    var s := style.GetOr(BlockStyle(None, None, None, None));
    BlockStyle(
      Override(s.backgroundColor, p.backgroundColor),
      Override(s.textColor, p.textColor),
      Override(s.textAlign, p.textAlign),
      Override(s.padding, p.padding))
  }

  /** `updateBlockStyle(id, styleUpdates)`: only the style of the blocks with
      that id changes; style keys the patch leaves out keep their values and
      every other key of the block is untouched. */
  function UpdateBlockStyle(c: Composer, id: string, p: StylePatch): (r: Composer)
    ensures |r.blocks| == |c.blocks|
    ensures forall i :: 0 <= i < |c.blocks| && c.blocks[i].id == id ==>
      r.blocks[i] == c.blocks[i].(style := Some(MergeStyle(c.blocks[i].style, p)))
    ensures forall i :: 0 <= i < |c.blocks| && c.blocks[i].id != id ==> r.blocks[i] == c.blocks[i]
    ensures r.selected == c.selected && r.dragged == c.dragged
  {
    c.(blocks := Lists.MapWhere(c.blocks, (b: LandingBlock) => b.id == id,
                                (b: LandingBlock) => b.(style := Some(MergeStyle(b.style, p)))))
  }

  /** `removeBlock(id)`: exactly the blocks with another id remain, in order;
      the selection is cleared exactly when it was the removed block. */
  function RemoveBlock(c: Composer, id: string): (r: Composer)
    ensures forall i :: 0 <= i < |r.blocks| ==> r.blocks[i].id != id
    ensures forall b :: b in r.blocks <==> b in c.blocks && b.id != id
    ensures (exists i :: 0 <= i < |c.blocks| && c.blocks[i].id == id) ==> |r.blocks| < |c.blocks|
    ensures c.selected == Some(id) ==> r.selected.None?
    ensures c.selected != Some(id) ==> r.selected == c.selected
    ensures r.dragged == c.dragged
  {
    var keep := (b: LandingBlock) => b.id != id;
    Lists.FilterMembers(c.blocks, keep);
    Composer(Lists.Filter(c.blocks, keep), if c.selected == Some(id) then None else c.selected, c.dragged)
  }

  /** Adding a block with a fresh id and deleting it again restores the page
      and leaves nothing selected. */
  lemma AddThenRemoveBlock(c: Composer, t: BlockType, index: Option<nat>, freshId: string)
    requires forall i :: 0 <= i < |c.blocks| ==> c.blocks[i].id != freshId
    ensures RemoveBlock(AddBlock(c, t, index, freshId), freshId).blocks == c.blocks
    ensures RemoveBlock(AddBlock(c, t, index, freshId), freshId).selected.None?
  {
    var keep := (b: LandingBlock) => b.id != freshId;
    Lists.FilterOutInserted(c.blocks, Slot(index, |c.blocks|), NewBlock(t, freshId), keep);
  }

  /** `handleCanvasDrop`: a palette tag appends a block of that kind; a drop
      without one changes nothing, not even the drag tracker. */
  function CanvasDrop(c: Composer, blockType: Option<BlockType>, freshId: string): (r: Composer)
    ensures blockType.None? ==> r == c
    ensures blockType.Some? ==> |r.blocks| == |c.blocks| + 1 && r.blocks[..|c.blocks|] == c.blocks
    ensures blockType.Some? ==> r.blocks[|c.blocks|] == NewBlock(blockType.value, freshId)
    ensures blockType.Some? ==> r.selected == Some(freshId)
    ensures r.dragged == c.dragged
  {
    match blockType
    case None => c
    case Some(t) => AddBlock(c, t, None, freshId)
  }

  /** `handleBlockDragStart`: remember which block is being dragged. */
  function BlockDragStart(c: Composer, index: nat): (r: Composer)
    ensures r.dragged == Some(index) && r.blocks == c.blocks && r.selected == c.selected
  {
    c.(dragged := Some(index))
  }

  /** A reorder needs a tracker pointing at a block of the page. */
  predicate DropReady(c: Composer, blockType: Option<BlockType>, dropIndex: nat) {
    blockType.None? && c.dragged.Some? && c.dragged.value != dropIndex ==> c.dragged.value < |c.blocks|
  }

  /** `handleBlockDrop(dropIndex)`. A palette tag wins: a new block is spliced
      in before the target and the handler returns early, keeping the
      tracker. Otherwise a tracked block dropped elsewhere is removed at its
      source and reinserted at `dropIndex` — a permutation landing the block
      exactly at `dropIndex` with the others in their old relative order — and
      the tracker is reset on every path of this branch. */
  function BlockDrop(c: Composer, blockType: Option<BlockType>, dropIndex: nat, freshId: string): (r: Composer)
    requires DropReady(c, blockType, dropIndex)
    ensures |r.blocks| == if blockType.Some? then |c.blocks| + 1 else |c.blocks|
    ensures blockType.Some? ==> r == AddBlock(c, blockType.value, Some(dropIndex), freshId)
    ensures blockType.Some? ==> r.dragged == c.dragged
    ensures blockType.None? ==> r.dragged.None? && r.selected == c.selected
    ensures blockType.None? ==> multiset(r.blocks) == multiset(c.blocks)
    ensures blockType.None? && (c.dragged.None? || c.dragged.value == dropIndex) ==> r.blocks == c.blocks
    ensures blockType.None? && c.dragged.Some? && c.dragged.value != dropIndex && dropIndex < |c.blocks| ==>
      r.blocks[dropIndex] == c.blocks[c.dragged.value]
      && Lists.RemoveAt(r.blocks, dropIndex) == Lists.RemoveAt(c.blocks, c.dragged.value)
  {
    match blockType
    case Some(t) => AddBlock(c, t, Some(dropIndex), freshId)
    case None =>
      if c.dragged.Some? && c.dragged.value != dropIndex then
        var from := c.dragged.value;
        Lists.MovePermutes(c.blocks, from, dropIndex);
        assert dropIndex < |c.blocks| ==>
          Lists.Move(c.blocks, from, dropIndex)[dropIndex] == c.blocks[from]
          && Lists.RemoveAt(Lists.Move(c.blocks, from, dropIndex), dropIndex) == Lists.RemoveAt(c.blocks, from) by {
          if dropIndex < |c.blocks| {
            Lists.MoveLands(c.blocks, from, dropIndex);
          }
        }
        Composer(Lists.Move(c.blocks, from, dropIndex), c.selected, None)
      else
        c.(dragged := None)
  }

  /** Dragging a block from `i` to `j` and then back from `j` to `i`
      restores the page. */
  lemma DragThereAndBack(c: Composer, i: nat, j: nat)
    requires i < |c.blocks| && j < |c.blocks| && i != j
    ensures DropReady(BlockDragStart(c, i), None, j)
    ensures var once := BlockDrop(BlockDragStart(c, i), None, j, "");
      DropReady(BlockDragStart(once, j), None, i)
      && BlockDrop(BlockDragStart(once, j), None, i, "").blocks == c.blocks
  {
    Lists.MoveInverse(c.blocks, i, j);
  }

  /** A block carrying only an id, for the worked example. */
  function Plain(id: string): LandingBlock {
    LandingBlock(id, TextSection, None, None, None, None, None)
  }

  /** Dragging block 2 of [A, B, C, D] onto block 0 yields [C, A, B, D]. */
  lemma ReorderExample()
    ensures
      var page := [Plain("A"), Plain("B"), Plain("C"), Plain("D")];
      BlockDrop(Composer(page, None, Some(2)), None, 0, "").blocks
        == [Plain("C"), Plain("A"), Plain("B"), Plain("D")]
  {
    var page := [Plain("A"), Plain("B"), Plain("C"), Plain("D")];
    var rest := [Plain("A"), Plain("B"), Plain("D")];
    assert Lists.RemoveAt(page, 2) == rest;
    assert Lists.InsertAt(rest, 0, Plain("C")) == [Plain("C")] + rest;
    assert Lists.Move(page, 2, 0) == [Plain("C"), Plain("A"), Plain("B"), Plain("D")];
  }

  datatype ItemPart = ItemTitle | ItemDesc

  /** The list a feature-card edit commits: a copy of the block's items (none
      counts as an empty list) where item `i` — created empty when missing —
      gets `text` in the edited part. */
  function CommitItemText(items: Option<seq<FeatureItem>>, i: nat, part: ItemPart, text: string): (r: seq<FeatureItem>)
    requires i <= |items.GetOr([])|
    ensures var prior := items.GetOr([]);
      && |r| == (if i < |prior| then |prior| else |prior| + 1)
      && (forall j :: 0 <= j < |prior| && j != i ==> r[j] == prior[j])
      && (part == ItemTitle ==> r[i].title == text)
      && (part == ItemDesc ==> r[i].desc == text)
      && (i < |prior| && part == ItemTitle ==> r[i].desc == prior[i].desc && r[i].icon == prior[i].icon)
      && (i < |prior| && part == ItemDesc ==> r[i].title == prior[i].title && r[i].icon == prior[i].icon)
      && (i == |prior| && part == ItemTitle ==> r[i].desc == "" && r[i].icon.None?)
      && (i == |prior| && part == ItemDesc ==> r[i].title == "" && r[i].icon.None?)
  {
    var prior := items.GetOr([]);
    var item := if i < |prior| then prior[i] else FeatureItem("", "", None);
    var edited := if part == ItemTitle then item.(title := text) else item.(desc := text);
    if i < |prior| then prior[i := edited] else prior + [edited]
  }

  /** Committing an inline edit of card `i` of the block at position `k`
      (on focus loss, with the element's text content): the blocks sharing
      that block's id get the new item list, nothing else changes. */
  function CommitFeatureItem(c: Composer, k: nat, i: nat, part: ItemPart, text: string): (r: Composer)
    requires k < |c.blocks| && i <= |c.blocks[k].items.GetOr([])|
    ensures |r.blocks| == |c.blocks|
    ensures forall j :: 0 <= j < |c.blocks| && c.blocks[j].id != c.blocks[k].id ==> r.blocks[j] == c.blocks[j]
    ensures forall j :: 0 <= j < |c.blocks| && c.blocks[j].id == c.blocks[k].id ==>
      r.blocks[j] == c.blocks[j].(items := Some(CommitItemText(c.blocks[k].items, i, part, text)))
    ensures r.selected == c.selected && r.dragged == c.dragged
  {
    UpdateBlock(c, c.blocks[k].id, EmptyBlockPatch.(items := Some(Some(CommitItemText(c.blocks[k].items, i, part, text)))))
  }

  /** Removal works block by block, so it never reorders: removing from
      `a + b` is removing from `a`, then from `b`. */
  lemma RemoveBlockSplit(a: seq<LandingBlock>, b: seq<LandingBlock>, id: string, sel: Option<string>, dragged: Option<nat>)
    ensures RemoveBlock(Composer(a + b, sel, dragged), id).blocks
      == RemoveBlock(Composer(a, sel, dragged), id).blocks + RemoveBlock(Composer(b, sel, dragged), id).blocks
  {
    Lists.FilterAppend(a, b, (x: LandingBlock) => x.id != id);
  }

  /** A single block is kept exactly when its id differs. */
  lemma RemoveBlockSingle(b: LandingBlock, id: string, sel: Option<string>, dragged: Option<nat>)
    ensures RemoveBlock(Composer([b], sel, dragged), id).blocks == if b.id != id then [b] else []
  {
    assert [b][1..] == [];
  }

  /** The empty patch changes nothing. */
  lemma UpdateBlockEmpty(c: Composer, id: string)
    ensures UpdateBlock(c, id, EmptyBlockPatch) == c
  {
    assert UpdateBlock(c, id, EmptyBlockPatch).blocks == c.blocks;
  }

  /** A patch that leaves ids alone keeps the block ids unique. */
  lemma UpdateBlockKeepsUnique(c: Composer, id: string, p: BlockPatch)
    requires UniqueBlockIds(c.blocks) && p.id.None?
    ensures UniqueBlockIds(UpdateBlock(c, id, p).blocks)
  {
    var r := UpdateBlock(c, id, p).blocks;
    assert forall i :: 0 <= i < |r| ==> r[i].id == c.blocks[i].id;
  }

  /** Merging the same style patch a second time changes nothing. */
  lemma MergeStyleIdempotent(style: Option<BlockStyle>, p: StylePatch)
    ensures MergeStyle(Some(MergeStyle(style, p)), p) == MergeStyle(style, p)
  {
  }

  /** Applying the same style update twice is applying it once. */
  lemma UpdateBlockStyleIdempotent(c: Composer, id: string, p: StylePatch)
    ensures UpdateBlockStyle(UpdateBlockStyle(c, id, p), id, p) == UpdateBlockStyle(c, id, p)
  {
    var once := UpdateBlockStyle(c, id, p);
    var twice := UpdateBlockStyle(once, id, p);
    forall i | 0 <= i < |c.blocks| ensures twice.blocks[i] == once.blocks[i] {
      if c.blocks[i].id == id {
        MergeStyleIdempotent(c.blocks[i].style, p);
      }
    }
  }

  /** Committing an existing card's current text changes nothing. */
  lemma CommitItemUnchanged(items: seq<FeatureItem>, i: nat, part: ItemPart)
    requires i < |items|
    ensures CommitItemText(Some(items), i, part, if part == ItemTitle then items[i].title else items[i].desc) == items
  {
  }

  /** With unique block ids, re-committing a card's current text leaves the
      page as it was. */
  lemma CommitFeatureItemUnchanged(c: Composer, k: nat, i: nat, part: ItemPart)
    requires UniqueBlockIds(c.blocks)
    requires k < |c.blocks| && c.blocks[k].items.Some? && i < |c.blocks[k].items.value|
    ensures var it := c.blocks[k].items.value[i];
      CommitFeatureItem(c, k, i, part, if part == ItemTitle then it.title else it.desc) == c
  {
    var it := c.blocks[k].items.value[i];
    var text := if part == ItemTitle then it.title else it.desc;
    CommitItemUnchanged(c.blocks[k].items.value, i, part);
    var r := CommitFeatureItem(c, k, i, part, text);
    forall j | 0 <= j < |c.blocks| ensures r.blocks[j] == c.blocks[j] {
      if c.blocks[j].id == c.blocks[k].id {
        assert j == k;
      }
    }
  }

  /** Removing one position keeps ids unique and drops the removed id. */
  lemma RemoveAtUnique(s: seq<LandingBlock>, k: nat)
    requires UniqueBlockIds(s) && k < |s|
    ensures UniqueBlockIds(Lists.RemoveAt(s, k))
    ensures forall i :: 0 <= i < |Lists.RemoveAt(s, k)| ==> Lists.RemoveAt(s, k)[i].id != s[k].id
  {
    var r := Lists.RemoveAt(s, k);
    forall i | 0 <= i < |r| ensures r[i] == s[if i < k then i else i + 1] {
      if i < k {
        assert r[..k][i] == s[..k][i];
      } else {
        assert r[k..][i - k] == s[k + 1..][i - k];
      }
    }
  }

  /** Inserting a block whose id the page lacks keeps ids unique. */
  lemma InsertAtUnique(s: seq<LandingBlock>, k: nat, x: LandingBlock)
    requires UniqueBlockIds(s)
    requires forall i :: 0 <= i < |s| ==> s[i].id != x.id
    ensures UniqueBlockIds(Lists.InsertAt(s, k, x))
  {
    var j := Lists.InsertionPoint(k, |s|);
    var r := Lists.InsertAt(s, k, x);
    forall i | 0 <= i < |r| ensures r[i] == if i < j then s[i] else if i == j then x else s[i - 1] {
      if i < j {
        assert r[..j][i] == s[..j][i];
      } else if i > j {
        assert r[j + 1..][i - j - 1] == s[j..][i - j - 1];
      }
    }
  }

  /** Filtering keeps ids unique. */
  lemma {:induction false} FilterUnique(s: seq<LandingBlock>, keep: LandingBlock -> bool)
    requires UniqueBlockIds(s)
    ensures UniqueBlockIds(Lists.Filter(s, keep))
  {
    if s != [] {
      var tail := s[1..];
      assert UniqueBlockIds(tail);
      FilterUnique(tail, keep);
      Lists.FilterMembers(tail, keep);
      var ft := Lists.Filter(tail, keep);
      forall i | 0 <= i < |ft| ensures ft[i].id != s[0].id {
        assert ft[i] in tail;
        var j :| 0 <= j < |tail| && tail[j] == ft[i];
        assert s[j + 1] == ft[i];
      }
      assert Lists.Filter(s, keep) == (if keep(s[0]) then [s[0]] else []) + ft;
    }
  }

  /** Adding a block with a fresh id, dropping blocks and removing blocks all
      keep the page's block ids unique. */
  lemma AddBlockKeepsUnique(c: Composer, t: BlockType, index: Option<nat>, freshId: string)
    requires UniqueBlockIds(c.blocks)
    requires forall i :: 0 <= i < |c.blocks| ==> c.blocks[i].id != freshId
    ensures UniqueBlockIds(AddBlock(c, t, index, freshId).blocks)
  {
    InsertAtUnique(c.blocks, Slot(index, |c.blocks|), NewBlock(t, freshId));
  }

  lemma BlockDropKeepsUnique(c: Composer, blockType: Option<BlockType>, dropIndex: nat, freshId: string)
    requires UniqueBlockIds(c.blocks) && DropReady(c, blockType, dropIndex)
    requires blockType.Some? ==> forall i :: 0 <= i < |c.blocks| ==> c.blocks[i].id != freshId
    ensures UniqueBlockIds(BlockDrop(c, blockType, dropIndex, freshId).blocks)
  {
    if blockType.Some? {
      AddBlockKeepsUnique(c, blockType.value, Some(dropIndex), freshId);
    } else if c.dragged.Some? && c.dragged.value != dropIndex {
      var from := c.dragged.value;
      RemoveAtUnique(c.blocks, from);
      InsertAtUnique(Lists.RemoveAt(c.blocks, from), dropIndex, c.blocks[from]);
    }
  }

  lemma RemoveBlockKeepsUnique(c: Composer, id: string)
    requires UniqueBlockIds(c.blocks)
    ensures UniqueBlockIds(RemoveBlock(c, id).blocks)
  {
    FilterUnique(c.blocks, (b: LandingBlock) => b.id != id);
  }
}

=== FILE: lists.dfy ===
/** Generic sequence operations that the editors build on: JavaScript's
    `Array.prototype.splice` (insert one / remove one), `map` restricted to the
    elements a predicate selects, and `filter`. */
module Lists {
  import opened Wrappers

  /** Where `splice(k, 0, x)` inserts into a list of length `n`: JavaScript
      clamps an index past the end to the end. */
  function InsertionPoint(k: nat, n: nat): (j: nat)
    ensures j <= n
    ensures k <= n ==> j == k
    ensures k > n ==> j == n
  {
    if k <= n then k else n
  }

  /** `s.splice(k, 0, x)`: `x` lands at the (clamped) index `k`, the rest keep
      their order around it. */
  function InsertAt<T>(s: seq<T>, k: nat, x: T): (r: seq<T>)
    ensures |r| == |s| + 1
    ensures r[InsertionPoint(k, |s|)] == x
    ensures r[..InsertionPoint(k, |s|)] == s[..InsertionPoint(k, |s|)]
    ensures r[InsertionPoint(k, |s|) + 1..] == s[InsertionPoint(k, |s|)..]
  {
    var j := InsertionPoint(k, |s|);
    assert s == s[..j] + s[j..];
    s[..j] + [x] + s[j..]
  }

  /** `s.splice(k, 1)` on a valid index: the element at `k` is dropped, the rest
      keep their order. */
  function RemoveAt<T>(s: seq<T>, k: nat): (r: seq<T>)
    requires k < |s|
    ensures |r| == |s| - 1
    ensures r[..k] == s[..k]
    ensures r[k..] == s[k + 1..]
  {
    assert s == s[..k] + [s[k]] + s[k + 1..];
    s[..k] + s[k + 1..]
  }

  /** Exchanges the elements at `i` and `j`; JavaScript's destructuring swap
      `[a[i], a[j]] = [a[j], a[i]]`. */
  function Swap<T>(s: seq<T>, i: nat, j: nat): (r: seq<T>)
    requires i < |s| && j < |s|
    ensures |r| == |s|
    ensures r[i] == s[j] && r[j] == s[i]
    ensures forall k :: 0 <= k < |s| && k != i && k != j ==> r[k] == s[k]
  {
    s[i := s[j]][j := s[i]]
  }

  /** The list move performed by a drag: remove at `from`, then insert the
      removed element at `to` in the shortened list. */
  function Move<T>(s: seq<T>, from: nat, to: nat): (r: seq<T>)
    requires from < |s|
    ensures |r| == |s|
  {
    InsertAt(RemoveAt(s, from), to, s[from])
  }

  /** `s.map(x => sel(x) ? f(x) : x)`: the selected elements are rewritten in
      place, every other element is kept, and the length does not change. */
  function MapWhere<T>(s: seq<T>, sel: T -> bool, f: T -> T): (r: seq<T>)
    ensures |r| == |s|
    ensures forall i :: 0 <= i < |s| && sel(s[i]) ==> r[i] == f(s[i])
    ensures forall i :: 0 <= i < |s| && !sel(s[i]) ==> r[i] == s[i]
  {
    if s == [] then [] else [if sel(s[0]) then f(s[0]) else s[0]] + MapWhere(s[1..], sel, f)
  }

  /** `s.map(f)` */
  function MapAll<T, U>(s: seq<T>, f: T -> U): (r: seq<U>)
    ensures |r| == |s|
    ensures forall i :: 0 <= i < |s| ==> r[i] == f(s[i])
  {
    if s == [] then [] else [f(s[0])] + MapAll(s[1..], f)
  }

  /** The position of the first element satisfying `p`, or `|s|` when there
      is none. */
  function FirstIndex<T>(s: seq<T>, p: T -> bool): (k: nat)
    ensures k <= |s|
    ensures k < |s| ==> p(s[k])
    ensures forall j :: 0 <= j < k ==> !p(s[j])
  {
    if s == [] then 0 else if p(s[0]) then 0 else 1 + FirstIndex(s[1..], p)
  }

  /** `s.find(p)`: the first element satisfying `p`, or `undefined`. */
  function FindFirst<T>(s: seq<T>, p: T -> bool): (r: Option<T>)
    ensures r.None? <==> forall i :: 0 <= i < |s| ==> !p(s[i])
    ensures r.Some? ==> FirstIndex(s, p) < |s| && r.value == s[FirstIndex(s, p)] && p(r.value)
  {
    var k := FirstIndex(s, p);
    if k < |s| then Some(s[k]) else None
  }

  /** `s.filter(keep)`: an order-preserving subsequence of exactly the kept
      elements. */
  function Filter<T>(s: seq<T>, keep: T -> bool): (r: seq<T>)
    ensures |r| <= |s|
    ensures forall i :: 0 <= i < |r| ==> keep(r[i])
    ensures |r| == |s| <==> forall i :: 0 <= i < |s| ==> keep(s[i])
  {
    if s == [] then []
    else (if keep(s[0]) then [s[0]] else []) + Filter(s[1..], keep)
  }

  /** Filtering distributes over concatenation: it never reorders. */
  lemma {:induction false} FilterAppend<T>(a: seq<T>, b: seq<T>, keep: T -> bool)
    ensures Filter(a + b, keep) == Filter(a, keep) + Filter(b, keep)
  {
    if a == [] {
      assert a + b == b;
    } else {
      var h := if keep(a[0]) then [a[0]] else [];
      assert (a + b)[0] == a[0];
      assert (a + b)[1..] == a[1..] + b;
      assert Filter(a + b, keep) == h + Filter(a[1..] + b, keep);
      FilterAppend(a[1..], b, keep);
      assert Filter(a, keep) == h + Filter(a[1..], keep);
    }
  }

  /** The filtered list holds exactly the kept elements of the original. */
  lemma {:induction false} FilterMembers<T>(s: seq<T>, keep: T -> bool)
    ensures forall x :: x in Filter(s, keep) <==> x in s && keep(x)
  {
    if s != [] {
      FilterMembers(s[1..], keep);
      assert forall x :: x in s <==> x == s[0] || x in s[1..];
    }
  }

  /** Filtering a list whose elements are all kept changes nothing. */
  lemma {:induction false} FilterAllKept<T>(s: seq<T>, keep: T -> bool)
    requires forall i :: 0 <= i < |s| ==> keep(s[i])
    ensures Filter(s, keep) == s
  {
    if s != [] {
      FilterAllKept(s[1..], keep);
    }
  }

  /** Inserting an element the filter drops into a list it keeps entirely,
      then filtering, gives back the list. */
  lemma FilterOutInserted<T>(s: seq<T>, k: nat, x: T, keep: T -> bool)
    requires forall i :: 0 <= i < |s| ==> keep(s[i])
    requires !keep(x)
    ensures Filter(InsertAt(s, k, x), keep) == s
  {
    var j := InsertionPoint(k, |s|);
    var a, b := s[..j], s[j..];
    assert InsertAt(s, k, x) == (a + [x]) + b;
    FilterAppend(a + [x], b, keep);
    FilterAppend(a, [x], keep);
    FilterAllKept(a, keep);
    FilterAllKept(b, keep);
    assert Filter([x], keep) == [];
    assert a + b == s;
  }

  /** Putting the removed element back where it was restores the list. */
  lemma InsertRemoved<T>(s: seq<T>, k: nat)
    requires k < |s|
    ensures InsertAt(RemoveAt(s, k), k, s[k]) == s
  {
    var r := InsertAt(RemoveAt(s, k), k, s[k]);
    assert r[..k] == s[..k];
    assert r[k + 1..] == s[k + 1..];
    assert s == s[..k] + [s[k]] + s[k + 1..];
    assert r == r[..k] + [r[k]] + r[k + 1..];
  }

  /** Removing what was just inserted gives back the original list. */
  lemma RemoveInserted<T>(s: seq<T>, k: nat, x: T)
    ensures RemoveAt(InsertAt(s, k, x), InsertionPoint(k, |s|)) == s
  {
    var j := InsertionPoint(k, |s|);
    var r := RemoveAt(InsertAt(s, k, x), j);
    assert r == r[..j] + r[j..];
    assert s == s[..j] + s[j..];
  }

  /** A move is a permutation. */
  lemma MovePermutes<T>(s: seq<T>, from: nat, to: nat)
    requires from < |s|
    ensures multiset(Move(s, from, to)) == multiset(s)
  {
    var rest := RemoveAt(s, from);
    var j := InsertionPoint(to, |rest|);
    assert s == s[..from] + [s[from]] + s[from + 1..];
    assert rest == s[..from] + s[from + 1..];
    assert Move(s, from, to) == rest[..j] + [s[from]] + rest[j..];
    assert rest == rest[..j] + rest[j..];
    calc {
      multiset(Move(s, from, to));
      multiset(rest[..j]) + multiset{s[from]} + multiset(rest[j..]);
      multiset(rest) + multiset{s[from]};
      multiset(s[..from]) + multiset(s[from + 1..]) + multiset{s[from]};
      multiset(s);
    }
  }

  /** After a move to a position inside the list the moved element sits at
      `to`, and taking it out again leaves the others in their original
      relative order. */
  lemma MoveLands<T>(s: seq<T>, from: nat, to: nat)
    requires from < |s| && to < |s|
    ensures Move(s, from, to)[to] == s[from]
    ensures RemoveAt(Move(s, from, to), to) == RemoveAt(s, from)
  {
    RemoveInserted(RemoveAt(s, from), to, s[from]);
  }

  /** Dragging back from where the block landed to where it came from undoes
      the move. */
  lemma MoveInverse<T>(s: seq<T>, from: nat, to: nat)
    requires from < |s| && to < |s|
    ensures Move(Move(s, from, to), to, from) == s
  {
    MoveLands(s, from, to);
    InsertRemoved(s, from);
  }

  /** Swapping twice with the same indices is the identity; a swap is a
      permutation. */
  lemma SwapInvolution<T>(s: seq<T>, i: nat, j: nat)
    requires i < |s| && j < |s|
    ensures Swap(Swap(s, i, j), j, i) == s
    ensures multiset(Swap(s, i, j)) == multiset(s)
  {
    var r := Swap(Swap(s, i, j), j, i);
    assert forall k :: 0 <= k < |s| ==> r[k] == s[k];
  }
}

=== FILE: participant.dfy ===
/** The participant page (`ParticipantView`): a step-by-step walk through
    the questions, collecting answers keyed by field id, then a two-phase
    submission (generating, then submitted) ending on the story reveal. The
    2000 ms timer is a discrete "timer fired" event. */
module Participant {
  import opened Wrappers
  import opened Types
  import Lists

  /** `currentStep`, `answers`, `isGenerating`, `isSubmitted`. */
  datatype Runtime = Runtime(step: nat, answers: map<string, string>, generating: bool, submitted: bool)

  const Initial := Runtime(0, map[], false, false)

  /** The page shows question `step` of a non-empty question list; the two
      flags are never both set. */
  predicate Valid(fields: seq<FormField>, s: Runtime) {
    0 < |fields| && s.step < |fields| && !(s.generating && s.submitted)
  }

  /** Position `k` holds the first fixture whose id is the requested one. */
  predicate FirstWithId(fixtures: seq<Form>, id: Option<string>, k: nat) {
    k < |fixtures| && Some(fixtures[k].id) == id && forall j :: 0 <= j < k ==> Some(fixtures[j].id) != id
  }

  /** Which form the page shows: the first fixture with the requested id,
      or the first fixture when none has it. */
  function ResolveForm(fixtures: seq<Form>, id: Option<string>): (r: Form)
    requires |fixtures| > 0
    ensures r in fixtures
    ensures (forall i :: 0 <= i < |fixtures| ==> Some(fixtures[i].id) != id) ==> r == fixtures[0]
    ensures forall k: nat :: FirstWithId(fixtures, id, k) ==> r == fixtures[k]
  {
    var p := (f: Form) => Some(f.id) == id;
    var k := Lists.FirstIndex(fixtures, p);
    assert forall k': nat :: FirstWithId(fixtures, id, k') ==> k == k' by {
      forall k': nat | FirstWithId(fixtures, id, k') ensures k == k' {
        assert p(fixtures[k']);
      }
    }
    if k < |fixtures| then fixtures[k] else fixtures[0]
  }

  /** `handleSubmit` (first phase): the generating flag is raised. */
  function Submit(s: Runtime): (r: Runtime)
    ensures r.generating && r.step == s.step && r.answers == s.answers && r.submitted == s.submitted
  {
    s.(generating := true)
  }

  /** The timer callback (second phase): generating ends, submitted begins. */
  function TimerFired(s: Runtime): (r: Runtime)
    ensures !r.generating && r.submitted && r.step == s.step && r.answers == s.answers
  {
    s.(generating := false, submitted := true)
  }

  /** `handleNext`: before the last question it moves one step on and keeps
      the answers; on the last question it starts the submission and stays
      on that step. */
  function Next(fields: seq<FormField>, s: Runtime): (r: Runtime)
    requires s.step < |fields|
    ensures r.answers == s.answers && r.submitted == s.submitted
    ensures s.step + 1 < |fields| ==> r.step == s.step + 1 && r.generating == s.generating
    ensures s.step + 1 == |fields| ==> r.step == s.step && r.generating
  {
    if s.step < |fields| - 1 then s.(step := s.step + 1) else Submit(s)
  }

  /** `handleInputChange(value)`: the answer for the current question's id
      becomes `value` (replacing any earlier one); every other answer stays. */
  function InputChange(fields: seq<FormField>, s: Runtime, value: string): (r: Runtime)
    requires s.step < |fields|
    ensures r.answers.Keys == s.answers.Keys + {fields[s.step].id}
    ensures r.answers[fields[s.step].id] == value
    ensures forall k :: k in s.answers && k != fields[s.step].id ==> r.answers[k] == s.answers[k]
    ensures r.step == s.step && r.generating == s.generating && r.submitted == s.submitted
  {
    s.(answers := s.answers[fields[s.step].id := value])
  }

  /** `answers[currentField.id]` is truthy: present and not the empty
      string. */
  predicate Answered(fields: seq<FormField>, s: Runtime)
    requires s.step < |fields|
  {
    fields[s.step].id in s.answers && s.answers[fields[s.step].id] != ""
  }

  /** The Next button is disabled exactly when the current question is
      required and unanswered. */
  predicate NextDisabled(fields: seq<FormField>, s: Runtime)
    requires s.step < |fields|
  {
    fields[s.step].required && !Answered(fields, s)
  }

  /** Clicking Next: nothing happens while the button is disabled. */
  function ClickNext(fields: seq<FormField>, s: Runtime): (r: Runtime)
    requires s.step < |fields|
    ensures NextDisabled(fields, s) ==> r == s
    ensures !NextDisabled(fields, s) ==> r == Next(fields, s)
  {
    if NextDisabled(fields, s) then s else Next(fields, s)
  }

  /** Only the free-text input (every kind but select and dropdown) listens
      for Enter. */
  predicate HasTextInput(f: FormField) {
    !IsChoice(f.kind)
  }

  /** Pressing Enter in the text input advances exactly when the current
      answer is truthy, whether or not the question is required. */
  function PressEnter(fields: seq<FormField>, s: Runtime): (r: Runtime)
    requires s.step < |fields|
    ensures HasTextInput(fields[s.step]) && Answered(fields, s) ==> r == Next(fields, s)
    ensures !HasTextInput(fields[s.step]) || !Answered(fields, s) ==> r == s
  {
    if HasTextInput(fields[s.step]) && Answered(fields, s) then Next(fields, s) else s
  }

  /** What the participant can do. */
  datatype Event = Input(value: string) | ClickNextButton | Enter | TimerElapsed

  /** The page's reaction to an event: the generating screen only waits for
      the timer, the reveal screen is final, the question screen offers
      input, the Next button and Enter. */
  function Step(fields: seq<FormField>, s: Runtime, ev: Event): (r: Runtime)
    requires Valid(fields, s)
    ensures Valid(fields, r)
  {
    if s.generating then
      (if ev == TimerElapsed then TimerFired(s) else s)
    else if s.submitted then s
    else
      match ev
      case Input(v) => InputChange(fields, s, v)
      case ClickNextButton => ClickNext(fields, s)
      case Enter => PressEnter(fields, s)
      case TimerElapsed => s
  }

  /** 0 while answering, 1 while generating, 2 once submitted. */
  function Phase(s: Runtime): nat {
    if s.submitted then 2 else if s.generating then 1 else 0
  }

  /** No event leads back: the phase never decreases, and from the moment the
      submission starts the answers and the step are frozen. */
  lemma NoWayBack(fields: seq<FormField>, s: Runtime, ev: Event)
    requires Valid(fields, s)
    ensures Phase(Step(fields, s, ev)) >= Phase(s)
    ensures Phase(s) > 0 ==> Step(fields, s, ev).answers == s.answers && Step(fields, s, ev).step == s.step
    ensures Phase(s) == 2 ==> Step(fields, s, ev) == s
  {
  }

  /** Runs a sequence of events. */
  function Run(fields: seq<FormField>, s: Runtime, evs: seq<Event>): (r: Runtime)
    requires Valid(fields, s)
    ensures Valid(fields, r)
    ensures Phase(r) >= Phase(s)
    ensures Phase(s) > 0 ==> r.answers == s.answers
    decreases |evs|
  {
    if evs == [] then s
    else
      NoWayBack(fields, s, evs[0]);
      Run(fields, Step(fields, s, evs[0]), evs[1..])
  }

  /** What the page shows. */
  datatype Screen =
    | Generating
    | Reveal(config: StoryConfig, answers: map<string, string>, fields: seq<FormField>)
    | Question(position: nat, total: nat, field: FormField, buttonLabel: string, nextDisabled: bool)

  /** The generating screen wins over the reveal, which receives the
      collected answers and the form's questions; otherwise the current
      question is shown with the counter `step + 1 / total` and a button
      reading "Complete Registration" exactly on the last question. */
  function ScreenOf(form: Form, s: Runtime): (sc: Screen)
    requires Valid(form.fields, s)
    ensures s.generating <==> sc.Generating?
    ensures !s.generating && s.submitted <==> sc.Reveal?
    ensures sc.Reveal? ==> sc.answers == s.answers && sc.fields == form.fields && sc.config == form.storyConfig
    ensures sc.Question? ==> sc.position == s.step + 1 && sc.total == |form.fields| && sc.field == form.fields[s.step]
    ensures sc.Question? ==> (sc.buttonLabel == "Complete Registration" <==> s.step + 1 == |form.fields|)
    ensures sc.Question? ==> (sc.nextDisabled <==> NextDisabled(form.fields, s))
  {
    if s.generating then Generating
    else if s.submitted then Reveal(form.storyConfig, s.answers, form.fields)
    else
      Question(s.step + 1, |form.fields|, form.fields[s.step],
               if s.step == |form.fields| - 1 then "Complete Registration" else "Next Question",
               NextDisabled(form.fields, s))
  }

  /** Once the card is revealed, no event changes what the page shows. */
  lemma RevealIsFinal(form: Form, s: Runtime, ev: Event)
    requires Valid(form.fields, s) && ScreenOf(form, s).Reveal?
    ensures ScreenOf(form, Step(form.fields, s, ev)) == ScreenOf(form, s)
  {
  }

  /** Clicking an enabled button on the last question shows the generating
      screen, and the timer then reveals the card with the answers given. */
  lemma LastClickReveals(form: Form, s: Runtime)
    requires Valid(form.fields, s) && ScreenOf(form, s).Question?
    requires s.step + 1 == |form.fields| && !ScreenOf(form, s).nextDisabled
    ensures ScreenOf(form, Step(form.fields, s, ClickNextButton)) == Generating
    ensures ScreenOf(form, Step(form.fields, Step(form.fields, s, ClickNextButton), TimerElapsed))
      == Reveal(form.storyConfig, s.answers, form.fields)
  {
  }

  /** The walk-through for questions [A (required), B (optional)]: Next does
      nothing while A is unanswered; after answering A one click moves to B;
      a click on B starts generating; the timer reveals the card with exactly
      A's answer recorded. */
  lemma TwoQuestionWalk(v: string)
    requires v != ""
    ensures
      var a := FormField("A", TextInput, "A", None, true, false, None);
      var b := FormField("B", TextInput, "B", None, false, false, None);
      var fs := [a, b];
      && ClickNext(fs, Initial) == Initial
      && var s1 := InputChange(fs, Initial, v);
      && ClickNext(fs, s1).step == 1
      && var s2 := ClickNext(fs, s1);
      && ClickNext(fs, s2).generating
      && TimerFired(ClickNext(fs, s2)) == Runtime(1, map["A" := v], false, true)
  {
  }
}

=== FILE: story_preview.dfy ===
/** The story card (`StoryPreview`): a pure function of the story
    configuration, the optional answer map and the optional question list.
    The card is modelled as the data it shows, not as markup. */
module StoryPreview {
  import opened Wrappers
  import opened Types
  import Text
  import Lists

  /** The name-field test: id "name", or a label containing "name" in any
      letter case. */
  predicate IsNameField(f: FormField) {
    f.id == "name" || Text.Contains(Text.ToLower(f.caption), "name")
  }

  /** Position `k` holds the first question passing the name-field test. */
  predicate FirstNameAt(fields: seq<FormField>, k: nat) {
    k < |fields| && IsNameField(fields[k]) && forall j :: 0 <= j < k ==> !IsNameField(fields[j])
  }

  /** The first question passing the name-field test. */
  function FindNameField(fields: seq<FormField>): (r: Option<FormField>)
    ensures r.None? <==> forall i :: 0 <= i < |fields| ==> !IsNameField(fields[i])
    ensures forall k: nat :: FirstNameAt(fields, k) ==> r == Some(fields[k])
  {
    var p := (f: FormField) => IsNameField(f);
    var r := Lists.FindFirst(fields, p);
    assert forall k: nat :: FirstNameAt(fields, k) ==> Lists.FirstIndex(fields, p) == k by {
      forall k: nat | FirstNameAt(fields, k)
        ensures Lists.FirstIndex(fields, p) == k
      {
        assert p(fields[k]);
      }
    }
    r
  }

  /** The participant name on the card. With answers and questions it is the
      answer to the first name field (possibly `undefined`), or "Participant"
      when no question is a name field; without either it is the sample
      name "Alex Chen". */
  function ParticipantName(data: Option<map<string, string>>, fields: Option<seq<FormField>>): (r: Option<string>)
    ensures data.None? || fields.None? ==> r == Some("Alex Chen")
    ensures data.Some? && fields.Some? && (forall i :: 0 <= i < |fields.value| ==> !IsNameField(fields.value[i])) ==>
      r == Some("Participant")
    ensures data.Some? && fields.Some? ==>
      forall k: nat :: FirstNameAt(fields.value, k) ==> r == Lookup(data.value, fields.value[k].id)
  {
    if data.Some? && fields.Some? then
      match FindNameField(fields.value)
      case Some(f) => Lookup(data.value, f.id)
      case None => Some("Participant")
    else
      Some("Alex Chen")
  }

  /** A question whose answer the card lists. */
  predicate InStory(f: FormField) {
    f.showInStory && !IsNameField(f)
  }

  /** The questions whose answers the card lists: the order-preserving
      subsequence of questions marked for the story that fail the name-field
      test; none without a question list. */
  function StoryFields(fields: Option<seq<FormField>>): (r: seq<FormField>)
    ensures fields.None? ==> r == []
    ensures forall i :: 0 <= i < |r| ==> r[i].showInStory && !IsNameField(r[i])
    ensures fields.Some? ==> forall g :: g in r <==> g in fields.value && g.showInStory && !IsNameField(g)
    ensures fields.Some? ==> |r| <= |fields.value|
  {
    match fields
    case None => []
    case Some(fs) =>
      Lists.FilterMembers(fs, InStory);
      Lists.Filter(fs, InStory)
  }

  /** A single question is listed on its own exactly when it is marked for
      the story and is not a name field. */
  lemma StoryFieldsSingle(f: FormField)
    ensures StoryFields(Some([f])) == if InStory(f) then [f] else []
  {
  }

  /** The story list is computed question by question: the list for `a + b`
      is the list for `a` followed by the list for `b`. */
  lemma StoryFieldsInOrder(a: seq<FormField>, b: seq<FormField>)
    ensures StoryFields(Some(a + b)) == StoryFields(Some(a)) + StoryFields(Some(b))
  {
    Lists.FilterAppend(a, b, InStory);
  }

  /** The question chosen as the name is never listed again among the story
      fields. */
  lemma NameFieldNotListed(fields: seq<FormField>)
    ensures FindNameField(fields).Some? ==> FindNameField(fields).value !in StoryFields(Some(fields))
  {
    if FindNameField(fields).Some? {
      var p := (f: FormField) => IsNameField(f);
      assert IsNameField(fields[Lists.FirstIndex(fields, p)]);
    }
  }

  /** The theme: the style of the configured template, falling back to the
      gradient theme when the template has no (non-empty) style or the
      configuration has no template at all. The style table is a parameter. */
  function Theme(config: StoryConfig, styles: map<StoryTemplate, string>): (r: Option<string>)
    ensures config.TemplateStory? && config.template in styles && styles[config.template] != "" ==>
      r == Some(styles[config.template])
    ensures !(config.TemplateStory? && config.template in styles && styles[config.template] != "") ==>
      r == (if Gradient in styles then Some(styles[Gradient]) else None)
  {
    if config.TemplateStory? && config.template in styles && styles[config.template] != "" then
      Some(styles[config.template])
    else if Gradient in styles then Some(styles[Gradient])
    else None
  }

  /** One label/value line of the card. */
  datatype Entry = Entry(caption: string, value: Option<string>)

  /** The middle of the card: the placeholder box, or the answer lines. */
  datatype Entries = Placeholder | Lines(lines: seq<Entry>)

  /** What the card shows. `name` is `None` when the name section is hidden
      and `Some(n)` when it shows `n` (itself possibly `undefined`). */
  datatype Card = Card(
    theme: Option<string>,
    headline: Option<string>,
    name: Option<Option<string>>,
    entries: Entries,
    footer: Option<string>,
    showDate: bool)

  /** The answer lines for the story fields, in their order. */
  function AnswerLines(sf: seq<FormField>, data: map<string, string>): (r: seq<Entry>)
    ensures |r| == |sf|
    ensures forall i :: 0 <= i < |sf| ==> r[i] == Entry(sf[i].caption, Lookup(data, sf[i].id))
  {
    if sf == [] then [] else [Entry(sf[0].caption, Lookup(data, sf[0].id))] + AnswerLines(sf[1..], data)
  }

  /** Renders the card. The name section appears exactly when the
      configuration asks for it; answer lines appear exactly when answers
      are given, one per story field in order, and the placeholder otherwise.
      A canvas-shaped configuration has none of the template keys, so it
      shows no headline, no name, no footer text and no date. */
  function Render(config: StoryConfig, data: Option<map<string, string>>, fields: Option<seq<FormField>>,
                  styles: map<StoryTemplate, string>): (c: Card)
    ensures c.theme == Theme(config, styles)
    ensures c.name.Some? <==> config.TemplateStory? && config.showParticipantName
    ensures c.name.Some? ==> c.name.value == ParticipantName(data, fields)
    ensures c.entries.Placeholder? <==> data.None?
    ensures data.Some? ==> |c.entries.lines| == |StoryFields(fields)|
    ensures data.Some? ==> forall i :: 0 <= i < |StoryFields(fields)| ==>
      c.entries.lines[i] == Entry(StoryFields(fields)[i].caption, Lookup(data.value, StoryFields(fields)[i].id))
    ensures c.headline == (if config.TemplateStory? then Some(config.primaryText) else None)
    ensures c.footer == (if config.TemplateStory? then Some(config.secondaryText) else None)
    ensures c.showDate <==> config.TemplateStory? && config.showDate
  {
    Card(
      Theme(config, styles),
      if config.TemplateStory? then Some(config.primaryText) else None,
      if config.TemplateStory? && config.showParticipantName then Some(ParticipantName(data, fields)) else None,
      if data.Some? then Lines(AnswerLines(StoryFields(fields), data.value)) else Placeholder,
      if config.TemplateStory? then Some(config.secondaryText) else None,
      config.TemplateStory? && config.showDate)
  }

  /** The theme depends on the template alone: two template-shaped
      configurations with the same template get the same theme, whatever
      their texts and flags. */
  lemma ThemeOnlyByTemplate(a: StoryConfig, b: StoryConfig, styles: map<StoryTemplate, string>)
    requires a.TemplateStory? && b.TemplateStory? && a.template == b.template
    ensures Theme(a, styles) == Theme(b, styles)
  {
  }

  /** With a non-empty gradient style in the table, every configuration
      gets a non-empty background, whatever its template. */
  lemma ThemeNeverBlank(config: StoryConfig, styles: map<StoryTemplate, string>)
    requires Gradient in styles && styles[Gradient] != ""
    ensures Theme(config, styles).Some? && Theme(config, styles).value != ""
  {
  }

  /** The card shows only the answers it lists and the name answer: two
      answer maps that agree on those give the same card. */
  lemma RenderDependsOnShownAnswers(config: StoryConfig, d1: map<string, string>, d2: map<string, string>,
                                    fields: seq<FormField>, styles: map<StoryTemplate, string>)
    requires forall i :: 0 <= i < |StoryFields(Some(fields))| ==>
      Lookup(d1, StoryFields(Some(fields))[i].id) == Lookup(d2, StoryFields(Some(fields))[i].id)
    requires FindNameField(fields).Some? ==>
      Lookup(d1, FindNameField(fields).value.id) == Lookup(d2, FindNameField(fields).value.id)
    ensures Render(config, Some(d1), Some(fields), styles) == Render(config, Some(d2), Some(fields), styles)
  {
    var sf := StoryFields(Some(fields));
    assert AnswerLines(sf, d1) == AnswerLines(sf, d2);
    assert ParticipantName(Some(d1), Some(fields)) == ParticipantName(Some(d2), Some(fields));
  }

  /** A label spelled "Full Name" passes the name-field test. */
  lemma FullNameIsNameField(f: FormField)
    requires f.caption == "Full Name"
    ensures IsNameField(f)
  {
    var low := Text.ToLower(f.caption);
    assert low == "full name" by {
      assert low[0] == 'f' && low[5] == 'n';
    }
    assert Text.OccursAt(low, "name", 5);
  }

  /** When the only question is a name field, the card's name is its answer. */
  lemma SoleNameField(f: FormField, data: map<string, string>)
    requires IsNameField(f)
    ensures ParticipantName(Some(data), Some([f])) == Lookup(data, f.id)
  {
    assert FirstNameAt([f], 0);
  }

  /** A label containing "Name" in another case still marks the name field:
      for the question `full_name` labelled "Full Name" answered "Jo", the
      card's name is "Jo". */
  lemma FullNameExample()
    ensures
      var f := FormField("full_name", TextInput, "Full Name", None, true, true, None);
      ParticipantName(Some(map["full_name" := "Jo"]), Some([f])) == Some("Jo")
  {
    var f := FormField("full_name", TextInput, "Full Name", None, true, true, None);
    FullNameIsNameField(f);
    SoleNameField(f, map["full_name" := "Jo"]);
  }
}

=== FILE: text.dfy ===
/** The two string operations the story card relies on:
    `toLowerCase()` and `includes(...)`. */
module Text {

  /** Lower-cases one character; only the ASCII letters are mapped. */
  function LowerChar(c: char): char {
    if 'A' <= c <= 'Z' then (c as int + 32) as char else c
  }

  /** `s.toLowerCase()` over ASCII: same length, each character lowered. */
  function ToLower(s: string): (r: string)
    ensures |r| == |s|
    ensures forall i :: 0 <= i < |s| ==> r[i] == LowerChar(s[i])
    ensures forall i :: 0 <= i < |r| ==> !('A' <= r[i] <= 'Z')
  {
    if s == [] then [] else [LowerChar(s[0])] + ToLower(s[1..])
  }

  /** `t` occurs in `s` starting at position `i`. */
  predicate OccursAt(s: string, t: string, i: nat) {
    i + |t| <= |s| && s[i..i + |t|] == t
  }

  /** `s.includes(t)`: `t` occurs as a contiguous piece of `s`. */
  predicate Contains(s: string, t: string) {
    exists i: nat :: i <= |s| && OccursAt(s, t, i)
  }

  /** A lower-case letter comes only from itself or its upper-case form. */
  lemma LowerOnlyFrom(c: char, lower: char, upper: char)
    requires 'a' <= lower <= 'z' && upper as int == lower as int - 32
    ensures LowerChar(c) == lower ==> c == lower || c == upper
  {
  }

  /** An occurrence of `t` at `i` in the lower-cased `s` puts the lowered
      `s[i + j]` equal to `t[j]`. */
  lemma LowerAt(s: string, t: string, i: nat, j: nat)
    requires OccursAt(ToLower(s), t, i) && j < |t|
    ensures i + j < |s| && LowerChar(s[i + j]) == t[j]
  {
    assert ToLower(s)[i..i + |t|][j] == ToLower(s)[i + j];
  }

  /** No letter n (either case) is followed by a letter a (either case). */
  predicate NoNA(s: string) {
    forall i :: 0 <= i < |s| - 1 && (s[i] == 'n' || s[i] == 'N') ==> s[i + 1] != 'a' && s[i + 1] != 'A'
  }

  /** Without an n-a pair, "name" starts nowhere in the lower-cased string. */
  lemma NoNameAt(s: string, i: nat)
    requires NoNA(s)
    ensures !OccursAt(ToLower(s), "name", i)
  {
    if OccursAt(ToLower(s), "name", i) {
      var t := "name";
      assert t[0] == 'n' && t[1] == 'a';
      LowerAt(s, t, i, 0);
      LowerAt(s, t, i, 1);
      LowerOnlyFrom(s[i], 'n', 'N');
      LowerOnlyFrom(s[i + 1], 'a', 'A');
      assert false;
    }
  }

  /** A string without an n-a pair does not contain "name" once lower-cased. */
  lemma NoNameWithoutNA(s: string)
    requires NoNA(s)
    ensures !Contains(ToLower(s), "name")
  {
    forall i: nat | i <= |ToLower(s)| ensures !OccursAt(ToLower(s), "name", i) {
      NoNameAt(s, i);
    }
  }
}

=== FILE: types.dfy ===
/** The document model of `types.ts`: a form with its ordered questions, its
    story-card configuration and its landing page. */
module Types {
  import opened Wrappers

  /** The six question kinds (`FieldType`). */
  datatype FieldType = TextInput | EmailInput | NumberInput | DateInput | SelectInput | DropdownInput

  /** One question (`FormField`). `caption` is the source's `label` (a
      reserved word in Dafny); `options` is only meaningful for the choice
      kinds. */
  datatype FormField = FormField(
    id: string,
    kind: FieldType,
    caption: string,
    placeholder: Option<string>,
    required: bool,
    showInStory: bool,
    options: Option<seq<string>>)

  /** The four story-card themes (`StoryTemplate`). */
  datatype StoryTemplate = Gradient | Minimal | Bold | Neon

  /** An element of the canvas-shaped story configuration the fixtures carry;
      its visual style is not modelled. */
  datatype ElementKind = TextElement | ShapeElement | ImageElement
  datatype StoryElement = StoryElement(
    id: string,
    kind: ElementKind,
    content: Option<string>,
    x: int,
    y: int,
    width: Option<int>,
    height: Option<int>,
    isDynamic: bool)

  /** The story configuration. `TemplateStory` is the shape `types.ts`
      declares; `CanvasStory` is the shape the default constants actually hold.
      Both reach the story card, so both are modelled. */
  datatype StoryConfig =
    | TemplateStory(
        template: StoryTemplate,
        accentColor: string,
        primaryText: string,
        secondaryText: string,
        showDate: bool,
        showParticipantName: bool,
        backgroundImage: Option<string>)
    | CanvasStory(backgroundColor: string, elements: seq<StoryElement>)

  /** The four landing-page section kinds (`BlockType`). */
  datatype BlockType = Hero | TextSection | Features | Speakers

  datatype TextAlign = Left | Center | Right
  datatype Padding = Sm | Md | Lg

  /** Per-block presentation (`BlockStyle`); every key is optional. */
  datatype BlockStyle = BlockStyle(
    backgroundColor: Option<string>,
    textColor: Option<string>,
    textAlign: Option<TextAlign>,
    padding: Option<Padding>)

  /** One card of a features section. */
  datatype FeatureItem = FeatureItem(title: string, desc: string, icon: Option<string>)

  /** One landing-page section (`LandingBlock`): id and kind are mandatory,
      everything else optional. */
  datatype LandingBlock = LandingBlock(
    id: string,
    kind: BlockType,
    title: Option<string>,
    content: Option<string>,
    image: Option<string>,
    items: Option<seq<FeatureItem>>,
    style: Option<BlockStyle>)

  datatype LandingConfig = LandingConfig(blocks: seq<LandingBlock>)

  datatype FormStatus = Draft | Active | Closed

  /** The three counters of a form. */
  datatype Stats = Stats(views: nat, submissions: nat, shares: nat)

  /** The aggregate root (`Form`). */
  datatype Form = Form(
    id: string,
    userId: Option<string>,
    title: string,
    description: string,
    status: FormStatus,
    fields: seq<FormField>,
    storyConfig: StoryConfig,
    landingConfig: LandingConfig,
    stats: Stats,
    createdAt: Option<string>)

  /** One participant's answers, keyed by field id (`Submission`). */
  datatype Submission = Submission(id: string, formId: string, data: map<string, string>, createdAt: string)

  /** The string literal `types.ts` uses for each field kind; it is also the
      HTML input type of the participant's text box. */
  function FieldTypeName(t: FieldType): string {
    match t
    case TextInput => "text"
    case EmailInput => "email"
    case NumberInput => "number"
    case DateInput => "date"
    case SelectInput => "select"
    case DropdownInput => "dropdown"
  }

  /** Reads a field kind back from its literal; any other string is not a
      field kind. */
  function ParseFieldType(s: string): (r: Option<FieldType>)
    ensures r.Some? ==> FieldTypeName(r.value) == s
    ensures r.None? ==> forall t: FieldType :: FieldTypeName(t) != s
  {
    if s == "text" then Some(TextInput)
    else if s == "email" then Some(EmailInput)
    else if s == "number" then Some(NumberInput)
    else if s == "date" then Some(DateInput)
    else if s == "select" then Some(SelectInput)
    else if s == "dropdown" then Some(DropdownInput)
    else None
  }

  /** Every field kind has exactly one literal, and reading it back gives the
      same kind. */
  lemma FieldTypeRoundTrip(t: FieldType)
    ensures ParseFieldType(FieldTypeName(t)) == Some(t)
  {
  }

  function StatusName(s: FormStatus): string {
    match s
    case Draft => "draft"
    case Active => "active"
    case Closed => "closed"
  }

  /** A status is exactly one of the three literals. */
  function ParseStatus(s: string): (r: Option<FormStatus>)
    ensures r.Some? ==> StatusName(r.value) == s
    ensures r.None? ==> forall t: FormStatus :: StatusName(t) != s
  {
    if s == "draft" then Some(Draft)
    else if s == "active" then Some(Active)
    else if s == "closed" then Some(Closed)
    else None
  }

  function TemplateName(t: StoryTemplate): string {
    match t
    case Gradient => "gradient"
    case Minimal => "minimal"
    case Bold => "bold"
    case Neon => "neon"
  }

  /** A template is exactly one of the four literals. */
  function ParseTemplate(s: string): (r: Option<StoryTemplate>)
    ensures r.Some? ==> TemplateName(r.value) == s
    ensures r.None? ==> forall t: StoryTemplate :: TemplateName(t) != s
  {
    if s == "gradient" then Some(Gradient)
    else if s == "minimal" then Some(Minimal)
    else if s == "bold" then Some(Bold)
    else if s == "neon" then Some(Neon)
    else None
  }

  function BlockTypeName(t: BlockType): string {
    match t
    case Hero => "hero"
    case TextSection => "text"
    case Features => "features"
    case Speakers => "speakers"
  }

  /** A block kind is exactly one of the four literals. */
  function ParseBlockType(s: string): (r: Option<BlockType>)
    ensures r.Some? ==> BlockTypeName(r.value) == s
    ensures r.None? ==> forall t: BlockType :: BlockTypeName(t) != s
  {
    if s == "hero" then Some(Hero)
    else if s == "text" then Some(TextSection)
    else if s == "features" then Some(Features)
    else if s == "speakers" then Some(Speakers)
    else None
  }

  /** The choice kinds, which carry an option list. */
  predicate IsChoice(t: FieldType) {
    t == SelectInput || t == DropdownInput
  }

  /** Field ids are unique within a form's question list. */
  predicate UniqueFieldIds(fields: seq<FormField>) {
    forall i, j :: 0 <= i < j < |fields| ==> fields[i].id != fields[j].id
  }

  /** Block ids are unique within a landing page. */
  predicate UniqueBlockIds(blocks: seq<LandingBlock>) {
    forall i, j :: 0 <= i < j < |blocks| ==> blocks[i].id != blocks[j].id
  }
}

=== FILE: wrappers.dfy ===
/** Optional values and fallible results, used wherever the TypeScript source
    has an optional property (`x?: T`), `undefined`, `null` or a thrown error. */
module Wrappers {

  /** `None` stands for an absent property or `undefined`. */
  datatype Option<+T> = None | Some(value: T) {

    /** The value, or `default` when absent (JavaScript's `x ?? default`). */
    function GetOr(default: T): T {
      match this
      case Some(v) => v
      case None => default
    }
  }

  /** The outcome of a call that may throw: `Failure` carries the thrown error. */
  datatype Result<+R, +E> = Success(value: R) | Failure(error: E)

  /** Overrides `current` with `patch` when the patch carries a value: one key
      of a JavaScript object spread `{...current, ...patch}`. */
  function Override<T>(current: T, patch: Option<T>): (r: T)
    ensures patch.None? ==> r == current
    ensures patch.Some? ==> r == patch.value
  {
    patch.GetOr(current)
  }

  /** `m[key]` on a record: `None` (`undefined`) when the key is missing. */
  function Lookup<K, V>(m: map<K, V>, key: K): (r: Option<V>)
    ensures r.Some? <==> key in m
    ensures r.Some? ==> r.value == m[key]
  {
    if key in m then Some(m[key]) else None
  }
}
